=== FILE: README.md ===
# Polling script runner, modelled in Dafny

This project models the polling script runner of the smart-proxy remote-execution SSH plugin
(`lib/smart_proxy_remote_execution_ssh/runners/polling_script_runner.rb`). The runner starts a job
on a remote host in the background and stages three helper scripts next to it:

- `env.sh` holds the callback host, the task id, the step id and a one-time password;
- `control.sh` is the control script;
- `retrieve.sh` is the retrieval script.

Updates then come from one of two places. The proxy can poll with `refresh`, which runs the
retrieval script and interprets its output. The output is a *frame*: a status line, `RUNNING` or
`DONE <exit code>`, followed by the job's new output. Alternatively, the remote side can push a
callback. In "manual mode" the callback carries the base64-encoded output and the exit code.
Only `refresh` and `external_event` close the SSH session on their way out, whether they
return or raise. The one-time password is
generated when the runner is built and dropped when it is closed.

Each entry point is a pure function. Its inputs are the runner record and whatever the outside
world answered. Its result is the new runner record, the ordered list of effects the call
performed (published data, exit status, cleanup, uploads, closing the session, …) and how the
call ended: it returned, or an exception escaped.

Modules:

- `Text`: the Ruby string operations the code relies on. These are `String#lines`,
  `Array#join`, `String#chomp`, the digit run of a `\d+` group and its `to_i`, and `nil.to_s`.
- `FilePath`: `File.dirname` for POSIX paths.
- `Effects`: payload values with Ruby truthiness, the effects, and outcomes.
- `Retrieval`: `process_retrieved_data` and the frame format of the retrieval script.
- `ManualMode`: `load_event_updates`, including the status-line `sub`.
- `Templates`: `env_script` and `initialization_script`, including the heredoc margin `gsub`.
- `Credentials`: the one-time-password issuer, modelled as a set of (task id, password) pairs.
- `PollingScriptRunner`: the runner record and the entry points `initialize`, `prepare_start`,
  `upload_control_scripts`, `refresh`, `external_event`, `destroy_session` and `close`.

Several things are parameters of the model rather than parts of it:

- `Base64.decode64` is a function parameter.
- `cp_script_to_remote` is a function parameter that returns the remote path it copied to, or
  nothing when the copy raised.
- What `run_sync` returned or raised is data passed in.
- What the base runner's `run_refresh` did is data passed in.
- Whether a session is open when an `ensure` clause runs is data passed in: after the retrieval
  command and any cleanup it triggered in `refresh`, after `run_refresh`, and after a
  manual-mode cleanup.

Points where a reader might expect something else, and what the code does:

- The comment above `RETRIEVE_SCRIPT` (lines 16-19) says the first line begins with `RUNNING`
  or `DONE $EXITCODE`. The pattern `/^DONE (\d+)?/` needs a space after `DONE`, so a status
  line that is just `DONE` publishes no exit status and triggers no cleanup
  (`Retrieval.BareDoneIsNotCompletion`), while `DONE ` without digits reports 0.
- The code keeps no flag that limits the exit status to one publication per job. The model
  proves only that a single call publishes it at most once (`Retrieval.ExitAndCleanupTogether`).
- `refresh` rescues and logs a transport failure (lines 55-56), which suggests it is meant to
  be swallowed, yet it then raises `NoMethodError`. See Findings.

## Model

| member | source | states |
|---|---|---|
| Retrieval.ProcessRetrievedData | lib/smart_proxy_remote_execution_ssh/runners/polling_script_runner.rb:70-82 | Missing or empty output gives no effects. Otherwise the effects are, in order: the text after the first line as stdout (if there is any); stderr (if non-empty); then, only when the output starts with `DONE `, the exit status given by the digits after it (0 when there are none) followed by cleanup. |
| Retrieval.FrameRoundTrip | lib/smart_proxy_remote_execution_ssh/runners/polling_script_runner.rb:16-20 | Interpreting a frame the retrieval script writes gives back what the frame reports: its body as stdout, and for `DONE n` exactly exit status `n` followed by cleanup. |
| Retrieval.MatchDone | lib/smart_proxy_remote_execution_ssh/runners/polling_script_runner.rb:74 | `match(/^DONE (\d+)?/)` finds nothing exactly when no line of the text starts with `DONE `. Otherwise its group is taken at the first line that does: the digit run after `DONE `, or no group when that run is empty. |
| Retrieval.FirstLineMatch | lib/smart_proxy_remote_execution_ssh/runners/polling_script_runner.rb:73-74 | Matching the shifted first line gives a match exactly when the output starts with `DONE `, and the group is the digit run after it. |
| Retrieval.BareDoneIsNotCompletion | lib/smart_proxy_remote_execution_ssh/runners/polling_script_runner.rb:74 | `DONE` without a following space publishes no exit status of any value, and no cleanup. |
| Retrieval.DoneWithoutDigitsIsZero | lib/smart_proxy_remote_execution_ssh/runners/polling_script_runner.rb:74-80 | `DONE ` with no digits after it ends with exit status 0 and then cleanup. |
| Retrieval.ExitAndCleanupTogether | lib/smart_proxy_remote_execution_ssh/runners/polling_script_runner.rb:75-81 | One call publishes at most one exit status, whatever its value, and cleans up at most once. It cleans up exactly when it publishes an exit status. When it does, the exit status and cleanup are the last two effects. Only published data can repeat. |
| Retrieval.DataThenStatus | lib/smart_proxy_remote_execution_ssh/runners/polling_script_runner.rb:75-81 | For any list of data effects followed by either nothing or an exit status and cleanup, the same facts hold: at most one exit status, at most one cleanup, both last. |
| Text.Chomp | lib/smart_proxy_remote_execution_ssh/runners/polling_script_runner.rb:59 | The result is a prefix of the input that drops exactly one trailing `\r\n`, `\n` or `\r`. Text with neither ending is unchanged. |
| Text.ConcatLines | lib/smart_proxy_remote_execution_ssh/runners/polling_script_runner.rb:73-75 | Joining `lines` gives the text back. |
| Text.LinesAfterFirst | lib/smart_proxy_remote_execution_ssh/runners/polling_script_runner.rb:73-75 | After the first line is shifted off, the remaining lines join to exactly the text after the first newline, and they are empty exactly when that text is. |
| Text.DecimalRoundTrip | lib/smart_proxy_remote_execution_ssh/runners/polling_script_runner.rb:78-79 | `to_i` of the decimal notation of `n` is `n`. |
| ManualMode.StripStatusLine | lib/smart_proxy_remote_execution_ssh/runners/polling_script_runner.rb:126 | A text that starts with `RUNNING` or `DONE` and contains a newline loses exactly its first line. Any other text is unchanged. |
| ManualMode.StripFrame | lib/smart_proxy_remote_execution_ssh/runners/polling_script_runner.rb:126 | Stripping the status line of a frame gives back its body. |
| ManualMode.LoadEventUpdates | lib/smart_proxy_remote_execution_ssh/runners/polling_script_runner.rb:123-131 | A present `output` that is not a string raises, with no effects. Otherwise the call performs one or two effects: cleanup first, exactly when `exit_code` is truthy (so `0` counts), and then, last, a report of the stripped decoded output (if the key is present) with `exit_code`, or nil when it is absent. |
| ManualMode.PushedFrame | lib/smart_proxy_remote_execution_ssh/runners/polling_script_runner.rb:123-131 | A pushed frame with an exit code produces cleanup, then an update that carries the frame's body and that code. |
| Templates.HeredocLines | lib/smart_proxy_remote_execution_ssh/runners/polling_script_runner.rb:41-45 | Stripping the `      \| ` margin from a heredoc gives one line per content line, each ended by a newline. |
| Templates.StripHeredocLine | lib/smart_proxy_remote_execution_ssh/runners/polling_script_runner.rb:112 | The margin `gsub` removes the indentation and the `\| ` of a heredoc line and keeps its content. |
| Templates.StripMargin | lib/smart_proxy_remote_execution_ssh/runners/polling_script_runner.rb:112 | The margin `gsub` (the same call is at line 41) never lengthens the text, and leaves a text without spaces unchanged. |
| Templates.EnvScript | lib/smart_proxy_remote_execution_ssh/runners/polling_script_runner.rb:111-118 | For values without newlines, `env.sh` has exactly four lines. They assign `CALLBACK_HOST`, `TASK_ID`, `STEP_ID` and `OTP` in that order, each value in double quotes. |
| Templates.InitializationScript | lib/smart_proxy_remote_execution_ssh/runners/polling_script_runner.rb:36-46 | For values without newlines, the launch command has three lines: the `CONTROL_SCRIPT` export; then `chown <user> <dir>` when a command prefix is configured, or an empty line when it is not; then the launch line. |
| Templates.LaunchLineShape | lib/smart_proxy_remote_execution_ssh/runners/polling_script_runner.rb:37-44 | The launch line starts with the prefixed `sh -c '(` and ends with ` &`. It writes the exit code to `<dir>/init_exit_code` and the output to `<dir>/output`, and it calls `<control script> init-script-finish`. |
| Templates.LaunchWritesInto | lib/smart_proxy_remote_execution_ssh/runners/polling_script_runner.rb:36-46 | The last line of the launch command names both `<dir>/output` and `<dir>/init_exit_code`. |
| FilePath.DirnameShape | lib/smart_proxy_remote_execution_ssh/runners/polling_script_runner.rb:32 | For every path, `File.dirname` never returns an empty string. Its result starts with `/` exactly when the path does, ends in `/` only when it is `/` itself, and is `.` for a path without any slash. |
| FilePath.DirnameOfChild | lib/smart_proxy_remote_execution_ssh/runners/polling_script_runner.rb:32 | `File.dirname("dir/name")` is `dir`, for a non-empty file name without `/` and a non-empty directory that does not end in `/` and does not start with `//`. |
| Credentials.Generate | lib/smart_proxy_remote_execution_ssh/runners/polling_script_runner.rb:27 | The new password is valid afterwards, and no other password changes. |
| Credentials.Drop | lib/smart_proxy_remote_execution_ssh/runners/polling_script_runner.rb:98 | The dropped password is no longer valid, and no other password changes. |
| PollingScriptRunner.Initialize | lib/smart_proxy_remote_execution_ssh/runners/polling_script_runner.rb:22-28 | The runner keeps the callback host, the task id (`uuid`), the step id and the user method. It holds the password the issuer generated for the task, and nothing is uploaded yet. |
| PollingScriptRunner.Close | lib/smart_proxy_remote_execution_ssh/runners/polling_script_runner.rb:96-99 | The runner's password is revoked when it has one. Every other password is left alone. |
| PollingScriptRunner.CredentialLifecycle | lib/smart_proxy_remote_execution_ssh/runners/polling_script_runner.rb:27 | The password generated at construction is valid, and closing leaves the issuer exactly as it was before construction. |
| PollingScriptRunner.CloseIsIdempotent | lib/smart_proxy_remote_execution_ssh/runners/polling_script_runner.rb:96-99 | Closing twice revokes nothing more than closing once. |
| PollingScriptRunner.PollAll | lib/smart_proxy_remote_execution_ssh/runners/polling_script_runner.rb:52-62 | Any number of `refresh` calls change nothing in the runner but the session flag, and after at least one no session is open. |
| PollingScriptRunner.LifecycleReleasesCredential | lib/smart_proxy_remote_execution_ssh/runners/polling_script_runner.rb:22-99 | A runner that is built, staged (whether or not the copies succeed), polled any number of times with `refresh` as written, and closed leaves the issuer as it found it. |
| PollingScriptRunner.UploadControlScripts | lib/smart_proxy_remote_execution_ssh/runners/polling_script_runner.rb:101-108 | If the scripts are already uploaded, nothing happens. Otherwise copies of `env.sh`, `control.sh` and `retrieve.sh` are attempted in that order, stopping at the first that raises. The control path is recorded once its copy succeeds, the retrieval path and the flag only when all three succeed. A failure raises with the flag unset. Nothing else in the runner changes. |
| PollingScriptRunner.UploadIsIdempotent | lib/smart_proxy_remote_execution_ssh/runners/polling_script_runner.rb:101-108 | After a staging call that succeeded, a second call changes nothing, so each script has been uploaded exactly once. |
| PollingScriptRunner.FailedUploadIsRetried | lib/smart_proxy_remote_execution_ssh/runners/polling_script_runner.rb:101-108 | After a staging call that raised, the flag is unset and the next call copies `env.sh` again first, so it has been uploaded twice. When only the retrieval copy failed, the control path is already recorded. |
| PollingScriptRunner.PrepareStart | lib/smart_proxy_remote_execution_ssh/runners/polling_script_runner.rb:30-34 | The staged script, its wrapper and `File.dirname` of the script as base directory are recorded. The copies, the flag and the outcome are exactly those of `upload_control_scripts` on the runner before staging, and the resulting runner is that call's runner with only those three staging fields set; no other field, such as the callback host or step id, changes. |
| PollingScriptRunner.StagedChild | lib/smart_proxy_remote_execution_ssh/runners/polling_script_runner.rb:30-46 | After staging `dir/name` with a successful copy of the control script, the launch command is built from `dir`, the control script's remote path and the staged script. |
| PollingScriptRunner.LaunchWritesIntoScriptDir | lib/smart_proxy_remote_execution_ssh/runners/polling_script_runner.rb:30-46 | After staging `dir/name` with a successful copy of the control script, the launch command exports that script's path and writes the output and the exit code into `dir`. |
| PollingScriptRunner.DestroySession | lib/smart_proxy_remote_execution_ssh/runners/polling_script_runner.rb:141-146 | An open session is closed once, and `close_session` is taken to leave no session open. Without one, nothing happens. |
| PollingScriptRunner.DestroySessionIsIdempotent | lib/smart_proxy_remote_execution_ssh/runners/polling_script_runner.rb:141-146 | A second `destroy_session` does nothing. |
| PollingScriptRunner.ProcessingLeavesSessionsAlone | lib/smart_proxy_remote_execution_ssh/runners/polling_script_runner.rb:70-82 | Interpreting retrieved data never closes the session. |
| PollingScriptRunner.Refresh | lib/smart_proxy_remote_execution_ssh/runners/polling_script_runner.rb:52-62 | The call runs the retrieval command, prefix then a space then the script path. It interprets the chomped stdout and stderr, where a missing stream reads as empty. It always ends with no session, and it closes the session last exactly when one is open. If the transport raised, the call raises `NoMethodError` after closing the session. |
| PollingScriptRunner.RefreshWithoutStderr | lib/smart_proxy_remote_execution_ssh/runners/polling_script_runner.rb:52-62 | A poll with no stderr publishes what its chomped stdout says and then closes the session. |
| PollingScriptRunner.RefreshPublishesFrame | lib/smart_proxy_remote_execution_ssh/runners/polling_script_runner.rb:52-82 | Polling a frame ended by a newline publishes its body. For `DONE n` it also publishes exactly exit status `n` followed by cleanup. It then closes the session. |
| PollingScriptRunner.ChompFrame | lib/smart_proxy_remote_execution_ssh/runners/polling_script_runner.rb:59 | `chomp` takes off only the newline that ends a frame. |
| PollingScriptRunner.RefreshGuarded | lib/smart_proxy_remote_execution_ssh/runners/polling_script_runner.rb:52-62 | `refresh` as evidently intended: it always returns, and a transport failure gives no update, only the session close. In every other case it agrees with `Refresh`. |
| PollingScriptRunner.TransportFailureRaises | lib/smart_proxy_remote_execution_ssh/runners/polling_script_runner.rb:53-59 | On a transport failure, `refresh` as written raises `NoMethodError`, the guarded version returns, and both perform the same effects. |
| PollingScriptRunner.ExternalEvent | lib/smart_proxy_remote_execution_ssh/runners/polling_script_runner.rb:84-94 | A truthy `manual_mode` payload is interpreted by `load_event_updates`, with no poll. Any other payload causes exactly one `run_refresh` and keeps its outcome. Either way the session open when the `ensure` runs is closed last, including one that cleanup or `run_refresh` used, whether the call returns or raises. |
| PollingScriptRunner.PollRequestIgnoresPayload | lib/smart_proxy_remote_execution_ssh/runners/polling_script_runner.rb:86-91 | A payload that is not in manual mode is handled the same whatever else it carries. |
| PollingScriptRunner.ExternalEventReleasesSession | lib/smart_proxy_remote_execution_ssh/runners/polling_script_runner.rb:92-94 | `external_event` closes the session open at its `ensure` exactly once, as its last effect, and leaves none open. |

## Left out

- `load_script` and the contents of `control.sh` and `retrieve.sh`: they are files read at load time. The model takes them as opaque strings (`Bundle`), and the frame format is taken from the comment above `RETRIEVE_SCRIPT` (lines 16-19).
- `trigger` and `kill`: `trigger` forwards to `run_sync`; `kill` runs `pkill` through `run_sync` and reports any error with `publish_exception('Unexpected error', e, false)`. Neither is part of the polling flow that is modelled.
- `cleanup`'s body (`ensure_remote_command`, `rm -rf` of the working directory) is one opaque `Cleanup` effect. Whether it leaves a session open is an input; a cleanup that raises is not modelled.
- `super` in `initialize`, `prepare_start` and `close`: the base runner's part is outside the model. `prepare_start` takes the staged script path and wrapper as inputs.
- `run_sync` and `run_refresh`: their internals belong to the base runner and the SSH layer. Their results are inputs.
- PollingScriptRunner.DestroySession: `close_session` is not an input. It is modelled as returning normally and leaving no session open (`PollingScriptRunner.DestroySession` sets the session flag to false). `destroy_session` itself never clears `@session` (lines 141-146), so this rests on the base runner. A `close_session` that raises, inside an `ensure` or elsewhere, is not modelled; the "no session afterwards" clauses of `PollingScriptRunner.DestroySessionIsIdempotent`, `PollingScriptRunner.Refresh`, `PollingScriptRunner.ExternalEvent` and `PollingScriptRunner.ExternalEventReleasesSession` hold under this assumption.
- `Base64.decode64` is a function parameter, not an implementation of base64.
- `OtpManager`: password generation is random, so the fresh password is an input. The issuer is only a set of valid pairs.
- `ContinuousOutput` and `new_update`: the update is modelled as the list of output chunks plus the exit code.
- Logging (`@logger`) and the message text of the rescued exception are left out.
- `DEFAULT_REFRESH_INTERVAL`: it is not used in this file.
- Concurrency: calls are modelled one at a time.
- Retrieval.ProcessRetrievedData: strings are sequences of characters, so the `ArgumentError` Ruby's `match` raises on a string with an invalid byte sequence is not modelled.
- PollingScriptRunner.UploadControlScripts: a failed copy is modelled as one kind of error (`RemoteError`); which exception `cp_script_to_remote` raises is not modelled.
- Callback payload values are limited to nil, booleans, integers and strings. A non-string `output` is modelled as making decoding raise `NoMethodError`.
- Options that are missing (`nil`) at construction are modelled as strings. A missing password (`@otp` nil) is modelled and interpolates as the empty string.
- `FilePath.DirnameOfChild` covers paths of the form `dir/name`. `File.dirname` on Windows-style paths is not modelled.
- `Templates.EnvScript`: the line structure is promised only for values without newlines. A newline inside an option would add lines to the script.
- `Templates.InitializationScript`: the line structure is promised only for values without newlines, for the same reason.

## Findings

| source | as written | input that shows it | evidently intended | confidence | as-written member | corrected member |
|---|---|---|---|---|---|---|
| lib/smart_proxy_remote_execution_ssh/runners/polling_script_runner.rb:52-61 | When `run_sync` raises, the exception is logged but `pm` stays nil. `pm.stdout` then raises `NoMethodError`, which escapes `refresh` after the session is closed. | A poll whose SSH connection fails: `Transport(Failed, true)` | Log the failure and yield no update for this poll. | high; not executed | PollingScriptRunner.Refresh, PollingScriptRunner.TransportFailureRaises | PollingScriptRunner.RefreshGuarded |

=== FILE: credentials.dfy ===
/**
 The process-wide one-time-password issuer, seen only through what the runner does with
 it: one password generated for the task when the runner is built, dropped when it closes.
 */
module Credentials {

  /** The passwords currently valid, as (task id, one-time password) pairs. */
  type Issuer = set<(string, string)>

  /** `generate_otp(task_id)` recording `otp`, the fresh password the issuer produced. */
  function Generate(issuer: Issuer, taskId: string, otp: string): (r: Issuer)
    ensures (taskId, otp) in r
    ensures forall p :: p in issuer ==> p in r
    ensures forall p :: p in r && p != (taskId, otp) ==> p in issuer
  {
    issuer + {(taskId, otp)}
  }

  /** `drop_otp(task_id, otp)`: revokes that password; dropping one that is not there changes nothing. */
  function Drop(issuer: Issuer, taskId: string, otp: string): (r: Issuer)
    ensures (taskId, otp) !in r
    ensures forall p :: p in r ==> p in issuer
    ensures forall p :: p in issuer && p != (taskId, otp) ==> p in r
  {
    issuer - {(taskId, otp)}
  }
}

=== FILE: effects.dfy ===
/**
 What the runner does to the outside world, as data: the values a callback payload
 carries, the ordered effects an operation performs, and how it returns (normally or
 by raising).
 */
module Effects {

  /** A value of a callback payload (decoded JSON): `nil`, a boolean, an integer or a string. */
  datatype Value = Null | Bool(b: bool) | Int(i: int) | Str(s: string)

  /** Ruby truthiness: only `nil` and `false` are falsy; `0` and `""` are truthy. */
  predicate Truthy(v: Value) {
    !(v.Null? || v == Bool(false))
  }

  /** Ruby `Hash#[]`: a missing key reads as `nil`. */
  function Lookup(data: map<string, Value>, key: string): (v: Value)
    ensures key !in data ==> v == Null
    ensures key in data ==> v == data[key]
  {
    if key in data then data[key] else Null
  }

  datatype Stream = Stdout | Stderr

  /** One piece of output collected for the owner of the job. */
  datatype Chunk = Chunk(text: string, stream: Stream)

  datatype Effect =
    /** `publish_data(text, stream)` */
    | PublishData(text: string, stream: Stream)
    /** `publish_exit_status(code)` */
    | PublishExit(code: int)
    /** `cleanup`: removal of the remote working directory, when so configured */
    | Cleanup
    /** `new_update(output, exit_code)` with the collected output chunks */
    | NewUpdate(output: seq<Chunk>, exitCode: Value)
    /** `cp_script_to_remote(content, name)` */
    | Upload(content: string, name: string)
    /** `run_sync(command)` */
    | RunSync(command: string)
    /** `run_refresh`, the polling cycle of the base runner */
    | RunRefresh
    /** `close_session` */
    | CloseSession

  /** The exceptions the model distinguishes. */
  datatype Error =
    /** a method called on `nil` (or on a value that lacks it) */
    | NoMethodError
    /** a failure raised by the transport or the base runner */
    | RemoteError

  /** How an operation ends: it returns, or an exception escapes it. */
  datatype Outcome = Returned | Raised(error: Error)

  /** Number of occurrences of `e` in `effects`. */
  function Count(effects: seq<Effect>, e: Effect): nat {
    if effects == [] then 0
    else (if effects[0] == e then 1 else 0) + Count(effects[1..], e)
  }

  /** A single effect counts once if it is the one counted. */
  lemma CountSingle(x: Effect, e: Effect)
    ensures Count([x], e) == if x == e then 1 else 0
  {
    assert [x][1..] == [];
  }

  /** An effect that does not occur counts zero. */
  lemma {:induction false} CountAbsent(effects: seq<Effect>, e: Effect)
    requires e !in effects
    ensures Count(effects, e) == 0
    decreases |effects|
  {
    if effects != [] {
      assert forall x :: x in effects[1..] ==> x in effects;
      CountAbsent(effects[1..], e);
    }
  }

  /** Counting over a concatenation adds up. */
  lemma {:induction false} CountConcat(a: seq<Effect>, b: seq<Effect>, e: Effect)
    ensures Count(a + b, e) == Count(a, e) + Count(b, e)
    decreases |a|
  {
    if a == [] {
      assert a + b == b;
    } else {
      assert (a + b)[1..] == a[1..] + b;
      CountConcat(a[1..], b, e);
    }
  }
}

=== FILE: file_path.dfy ===
/**
 Ruby's `File.dirname` for POSIX paths (no drive letters, no UNC prefixes): a run of
 leading slashes counts as one root, trailing slashes are ignored, and the separator
 run before the last component is dropped together with that component.
 */
module FilePath {
  import opened Text

  predicate AllSlashes(s: string) {
    forall i :: 0 <= i < |s| ==> s[i] == '/'
  }

  /** Number of slashes `s` starts with. */
  function LeadingSlashes(s: string): (k: nat)
    ensures k <= |s|
    ensures AllSlashes(s[..k])
    ensures k < |s| ==> s[k] != '/'
    ensures k == 0 <==> !StartsWith(s, "/")
  {
    if s != [] && s[0] == '/' then 1 + LeadingSlashes(s[1..]) else 0
  }

  /** `s` without its trailing slashes. */
  function TrimTrailingSlashes(s: string): (t: string)
    ensures StartsWith(s, t)
    ensures AllSlashes(s[|t|..])
    ensures t == [] || t[|t| - 1] != '/'
  {
    if s != [] && s[|s| - 1] == '/' then
      var t := TrimTrailingSlashes(s[..|s| - 1]);
      assert s[..|t|] == s[..|s| - 1][..|t|];
      assert s[|t|..] == s[..|s| - 1][|t|..] + "/";
      t
    else s
  }

  /** Index of the last slash in `s`, or -1 when there is none. */
  function LastSlash(s: string): (j: int)
    ensures -1 <= j < |s|
    ensures 0 <= j ==> s[j] == '/'
    ensures forall i :: j < i < |s| ==> s[i] != '/'
  {
    if s == [] then -1
    else if s[|s| - 1] == '/' then |s| - 1
    else LastSlash(s[..|s| - 1])
  }

  /** Ruby's `File.dirname(path)`. */
  function Dirname(path: string): string {
    var k := LeadingSlashes(path);
    var root := if k == 0 then "" else "/";
    var t := TrimTrailingSlashes(path[k..]);
    var j := LastSlash(t);
    if j < 0 then (if k == 0 then "." else "/")
    else root + TrimTrailingSlashes(t[..j])
  }

  /**
   The directory part of any path is never empty; it is absolute exactly when the path is;
   it ends in a slash only when it is the root; and a path without any slash lies in the
   current directory `.`.
   */
  lemma DirnameShape(path: string)
    ensures Dirname(path) != []
    ensures StartsWith(Dirname(path), "/") <==> StartsWith(path, "/")
    ensures EndsWith(Dirname(path), "/") ==> Dirname(path) == "/"
    ensures LastSlash(path) < 0 ==> Dirname(path) == "."
  {
    DirnameEnds(path);
    var dir := Dirname(path);
    assert dir[..1] == [dir[0]];
    assert dir[|dir| - 1..] == [dir[|dir| - 1]];
  }

  /** The first and last characters of `File.dirname(path)`. */
  lemma DirnameEnds(path: string)
    ensures Dirname(path) != []
    ensures Dirname(path)[0] == '/' <==> StartsWith(path, "/")
    ensures Dirname(path)[|Dirname(path)| - 1] == '/' ==> Dirname(path) == "/"
    ensures LastSlash(path) < 0 ==> Dirname(path) == "."
  {
    var k := LeadingSlashes(path);
    if 0 <= LastSlash(TrimTrailingSlashes(path[k..])) {
      var u := DirnameOfSlashed(path);
    } else if LastSlash(path) < 0 && path != [] {
      assert path[0] != '/';
    }
  }

  /** When a slash remains after the root and the trailing slashes, the directory is the root and a relative part. */
  lemma DirnameOfSlashed(path: string) returns (u: string)
    requires 0 <= LastSlash(TrimTrailingSlashes(path[LeadingSlashes(path)..]))
    ensures Dirname(path) == (if LeadingSlashes(path) == 0 then "" else "/") + u
    ensures u != [] && u[0] != '/' && u[|u| - 1] != '/'
    ensures 0 <= LastSlash(path)
  {
    var k := LeadingSlashes(path);
    var t := TrimTrailingSlashes(path[k..]);
    var j := LastSlash(t);
    assert t[0] == path[k];
    assert 0 < j;
    u := TrimTrailingSlashes(t[..j]);
    assert StartsWith(t[..j], u);
    assert t[..j][0] != '/';
    assert path[k + j] == '/';
  }

  /**
   The directory part of `dir/name` is `dir` itself, for a directory path that does not
   end in a slash nor start with two, and a non-empty file name without slashes.
   */
  lemma {:induction false} DirnameOfChild(dir: string, name: string)
    requires dir != [] && dir[|dir| - 1] != '/'
    requires !StartsWith(dir, "//")
    requires name != [] && forall i :: 0 <= i < |name| ==> name[i] != '/'
    ensures Dirname(dir + "/" + name) == dir
  {
    var path := dir + "/" + name;
    var k := RootOfChild(dir, name);
    var tail := path[k..];
    assert tail == dir[k..] + "/" + name;
    assert tail[|tail| - 1] == name[|name| - 1];
    var j := |dir| - k;
    LastSlashOfSuffix(dir[k..] + "/", name);
    assert tail[..j] == dir[k..];
    assert TrimTrailingSlashes(dir[k..]) == dir[k..];
    if k == 1 {
      assert dir == "/" + dir[1..];
    }
  }

  /** `dir/name` has the same root as `dir`: at most one leading slash, followed by a non-slash. */
  lemma RootOfChild(dir: string, name: string) returns (k: nat)
    requires dir != [] && dir[|dir| - 1] != '/'
    requires !StartsWith(dir, "//")
    ensures k == LeadingSlashes(dir) == LeadingSlashes(dir + "/" + name)
    ensures k <= 1 && k < |dir|
    ensures k == 1 <==> dir[0] == '/'
  {
    var path := dir + "/" + name;
    if dir[0] == '/' {
      assert |dir| > 1;
      assert dir[1] != '/' by {
        assert dir[..2] != "//";
      }
      assert path[1..] == dir[1..] + "/" + name;
      k := 1;
    } else {
      k := 0;
    }
  }

  /** The last slash of `a + b` is the last slash of `a` when `b` has none. */
  lemma {:induction false} LastSlashOfSuffix(a: string, b: string)
    requires a != [] && a[|a| - 1] == '/'
    requires forall i :: 0 <= i < |b| ==> b[i] != '/'
    ensures LastSlash(a + b) == |a| - 1
    decreases |b|
  {
    if b == [] {
      assert a + b == a;
    } else {
      assert (a + b)[..|a + b| - 1] == a + b[..|b| - 1];
      LastSlashOfSuffix(a, b[..|b| - 1]);
    }
  }
}

=== FILE: manual_mode.dfy ===
/**
 The interpreter of manual-mode callback payloads (`load_event_updates`): the remote
 side pushes its output base64-encoded, with the exit code as a separate field.
 */
module ManualMode {
  import opened Wrappers
  import opened Text
  import opened Effects
  import Retrieval

  /**
   `.*\n` matched from position `k`: the greedy dot never crosses a newline, so the match
   ends just after the first newline at or after `k`, and there is none without one.
   */
  function DotStarNewline(s: string, k: nat): (m: Option<nat>)
    requires k <= |s|
    ensures m.Some? ==> k < m.value <= |s| && s[m.value - 1] == '\n'
    ensures m.Some? ==> forall i :: k <= i < m.value - 1 ==> s[i] != '\n'
    ensures m.None? ==> forall i :: k <= i < |s| ==> s[i] != '\n'
    decreases |s| - k
  {
    if k == |s| then None
    else if s[k] == '\n' then Some(k + 1)
    else DotStarNewline(s, k + 1)
  }

  /** Length of the match of `/\A(RUNNING|DONE).*\n/` on `s`, if it matches. */
  function StatusLineMatch(s: string): Option<nat> {
    if StartsWith(s, "RUNNING") then DotStarNewline(s, 7)
    else if StartsWith(s, "DONE") then DotStarNewline(s, 4)
    else None
  }

  predicate HasStatusPrefix(s: string) {
    StartsWith(s, "RUNNING") || StartsWith(s, "DONE")
  }

  /**
   `s.sub(/\A(RUNNING|DONE).*\n/, '')`: a text that begins with `RUNNING` or `DONE` and has
   a newline loses exactly its first line; any other text is returned unchanged.
   */
  function StripStatusLine(s: string): (r: string)
    ensures HasStatusPrefix(s) && '\n' in s ==> r == Rest(s) && s == FirstLine(s) + r
    ensures !(HasStatusPrefix(s) && '\n' in s) ==> r == s
  {
    match StatusLineMatch(s)
    case None =>
      assert HasStatusPrefix(s) ==> '\n' !in s;
      s
    case Some(m) =>
      var k := if StartsWith(s, "RUNNING") then 7 else 4;
      assert NoNewline(s[..m - 1]) by {
        assert forall i :: 0 <= i < k ==> s[i] == s[..k][i];
      }
      RestAfterNewline(s, m - 1);
      s[m..]
  }

  /** The decoded output of a frame pushed in manual mode is the frame's body. */
  lemma StripFrame(status: Retrieval.Status, body: string)
    ensures StripStatusLine(Retrieval.Frame(status, body)) == body
  {
    var f := Retrieval.Frame(status, body);
    Retrieval.FrameRest(status, body);
    assert f[|Retrieval.StatusLine(status)|] == '\n';
    if status.Running? {
      assert StartsWith(f, "RUNNING");
    } else {
      assert StartsWith(f, "DONE");
    }
  }

  /** The outcome of an operation together with the effects it performed on the way. */
  datatype Update = Update(effects: seq<Effect>, outcome: Outcome)

  /**
   `load_event_updates(event_data)`: collects the decoded, status-stripped `output` as
   stdout (when the key is present), runs cleanup when `exit_code` is truthy, and reports
   the collected output with `exit_code` (nil when absent) to the owner. `decode` is
   `Base64.decode64`; a present `output` that is not a string makes decoding raise.
   */
  function LoadEventUpdates(data: map<string, Value>, decode: string -> string): (u: Update)
    ensures ("output" in data && !data["output"].Str?) <==> u.outcome.Raised?
    ensures u.outcome.Raised? ==> u.effects == [] && u.outcome.error == NoMethodError
    ensures u.outcome.Returned? ==>
      && |u.effects| == (if Truthy(Lookup(data, "exit_code")) then 2 else 1)
      && u.effects[|u.effects| - 1].NewUpdate?
      && u.effects[|u.effects| - 1].exitCode == Lookup(data, "exit_code")
      && (Cleanup in u.effects <==> Truthy(Lookup(data, "exit_code")))
      && (u.effects[0] == Cleanup <==> Truthy(Lookup(data, "exit_code")))
    ensures u.outcome.Returned? ==>
      u.effects[|u.effects| - 1].output ==
        if "output" in data then [Chunk(StripStatusLine(decode(data["output"].s)), Stdout)] else []
  {
    if "output" in data && !data["output"].Str? then
      Update([], Raised(NoMethodError))
    else
      var output :=
        if "output" in data then [Chunk(StripStatusLine(decode(data["output"].s)), Stdout)] else [];
      var exitCode := Lookup(data, "exit_code");
      Update((if Truthy(exitCode) then [Cleanup] else []) + [NewUpdate(output, exitCode)], Returned)
  }

  /**
   A manual-mode payload whose output decodes to a frame and which carries the exit code
   reports the frame's body as stdout, cleans up, and hands the exit code on.
   */
  lemma PushedFrame(data: map<string, Value>, decode: string -> string, encoded: string,
                    status: Retrieval.Status, body: string, code: int)
    requires "output" in data && data["output"] == Str(encoded)
    requires decode(encoded) == Retrieval.Frame(status, body)
    requires "exit_code" in data && data["exit_code"] == Int(code)
    ensures LoadEventUpdates(data, decode) ==
      Update([Cleanup, NewUpdate([Chunk(body, Stdout)], Int(code))], Returned)
  {
    StripFrame(status, body);
  }
}

=== FILE: retrieval.dfy ===
/**
 The interpreter of the retrieval script's output (`process_retrieved_data`), and the
 frame format that script writes: a status line, `RUNNING` or `DONE <exit code>`, then
 the job's new output.
 */
module Retrieval {
  import opened Wrappers
  import opened Text
  import opened Effects

  /** `p` is where a line of `s` starts: where Ruby's `^` can match. */
  predicate LineStart(s: string, p: nat)
    requires p <= |s|
  {
    p == 0 || s[p - 1] == '\n'
  }

  /** The pattern `/^DONE (\d+)?/` matches at position `p` of `s`. */
  predicate DoneAt(s: string, p: nat)
    requires p <= |s|
  {
    LineStart(s, p) && StartsWith(s[p..], "DONE ")
  }

  /** The capture group of a match at `p`: the digit run after `DONE `, `None` when it is empty. */
  function DigitGroup(s: string, p: nat): Option<string>
    requires p <= |s| && DoneAt(s, p)
  {
    var digits := LeadingDigits(s[p + 5..]);
    if digits == [] then None else Some(digits)
  }

  /**
   Ruby's `s.match(/^DONE (\d+)?/)`, searching from position `p`: `None` when there is no
   match, otherwise the optional digit group (`None` when the group did not take part).
   */
  function MatchDoneFrom(s: string, p: nat): (m: Option<Option<string>>)
    requires p <= |s|
    ensures m.Some? && m.value.Some? ==> m.value.value != [] && AllDigits(m.value.value)
    decreases |s| - p
  {
    if DoneAt(s, p) then Some(DigitGroup(s, p))
    else if p == |s| then None
    else MatchDoneFrom(s, p + 1)
  }

  /** The search from `p` finds the leftmost match at or after `p`, and nothing when there is none. */
  lemma {:induction false} LeftmostMatchFrom(s: string, p: nat)
    requires p <= |s|
    ensures MatchDoneFrom(s, p).None? <==> forall q :: p <= q <= |s| ==> !DoneAt(s, q)
    ensures forall q :: p <= q <= |s| && DoneAt(s, q) && (forall q' :: p <= q' < q ==> !DoneAt(s, q')) ==>
      MatchDoneFrom(s, p) == Some(DigitGroup(s, q))
    decreases |s| - p
  {
    if DoneAt(s, p) {
      forall q | p <= q <= |s| && DoneAt(s, q) && (forall q' :: p <= q' < q ==> !DoneAt(s, q'))
        ensures MatchDoneFrom(s, p) == Some(DigitGroup(s, q))
      {
        assert q == p;
      }
    } else if p < |s| {
      LeftmostMatchFrom(s, p + 1);
      assert MatchDoneFrom(s, p) == MatchDoneFrom(s, p + 1);
      forall q | p <= q <= |s| && DoneAt(s, q) && (forall q' :: p <= q' < q ==> !DoneAt(s, q'))
        ensures MatchDoneFrom(s, p) == Some(DigitGroup(s, q))
      {
        assert p + 1 <= q;
      }
    }
  }

  /**
   Ruby's `s.match(/^DONE (\d+)?/)`: no match exactly when no line of `s` starts with
   `DONE `; otherwise the group is taken at the first line that does.
   */
  function MatchDone(s: string): (m: Option<Option<string>>)
    ensures m.None? <==> forall q :: 0 <= q <= |s| ==> !DoneAt(s, q)
    ensures forall q :: 0 <= q <= |s| && DoneAt(s, q) && (forall q' :: 0 <= q' < q ==> !DoneAt(s, q')) ==>
      m == Some(DigitGroup(s, q))
  {
    LeftmostMatchFrom(s, 0);
    MatchDoneFrom(s, 0)
  }

  /** Inside a single line the pattern can only match at its very beginning. */
  lemma {:induction false} NoMatchInsideLine(line: string, p: nat)
    requires 1 <= p <= |line|
    requires forall i :: 0 <= i < |line| - 1 ==> line[i] != '\n'
    ensures MatchDoneFrom(line, p) == None
    decreases |line| - p
  {
    if p < |line| {
      assert line[p - 1] != '\n';
      NoMatchInsideLine(line, p + 1);
    }
  }

  /**
   On the first line of a non-empty output, the status pattern matches exactly when the
   output starts with `DONE `, and its group is the digit run that follows.
   */
  lemma FirstLineMatch(o: string)
    requires o != []
    ensures var m := MatchDone(FirstLine(o));
      && (m.Some? <==> StartsWith(o, "DONE "))
      && (m.Some? ==> var d := LeadingDigits(o[5..]); m.value == if d == [] then None else Some(d))
  {
    var line := FirstLine(o);
    var n := LineLength(o);
    if StartsWith(o, "DONE ") {
      assert o[4] != '\n';
      assert StartsWith(line, "DONE ");
      assert StartsWith(o[5..], line[5..]);
      if n < |o| {
        assert line[|line[5..]| - 1 + 5] == '\n';
      }
      LeadingDigitsOfPrefix(line[5..], o[5..]);
    } else {
      assert !StartsWith(line, "DONE ");
      NoMatchInsideLine(line, 1);
    }
  }

  /** The exit status a status line announces: the digit run after `DONE `, 0 when there is none. */
  function AnnouncedExit(o: string): nat
    requires StartsWith(o, "DONE ")
  {
    DecimalValue(LeadingDigits(o[5..]))
  }

  /**
   `process_retrieved_data(output, err)`: nothing for empty or missing output; otherwise the
   text after the first line as stdout (when there is any), `err` as stderr (when non-empty),
   and, when the status line reads `DONE `, the announced exit status followed by cleanup.
   */
  function ProcessRetrievedData(output: Option<string>, err: string): (effects: seq<Effect>)
    ensures output.None? || output == Some([]) ==> effects == []
    ensures output.Some? && output.value != [] ==>
      var o := output.value;
      effects ==
        (if Rest(o) == [] then [] else [PublishData(Rest(o), Stdout)])
        + (if err == [] then [] else [PublishData(err, Stderr)])
        + (if StartsWith(o, "DONE ") then [PublishExit(AnnouncedExit(o)), Cleanup] else [])
  {
    if output.None? || output.value == [] then []
    else
      var lines := Lines(output.value);
      var result := MatchDone(lines[0]);
      var rest := lines[1..];
      LinesAfterFirst(output.value);
      FirstLineMatch(output.value);
      (if rest == [] then [] else [PublishData(Concat(rest), Stdout)])
      + (if err == [] then [] else [PublishData(err, Stderr)])
      + match result
        case None => []
        case Some(group) => [PublishExit(if group.Some? then DecimalValue(group.value) else 0), Cleanup]
  }

  /** What the retrieval script reports about the job. */
  datatype Status = Running | Done(code: nat)

  function StatusLine(status: Status): string {
    match status
    case Running => "RUNNING"
    case Done(code) => "DONE " + Decimal(code)
  }

  /** The retrieval script's output: the status line, then the job's new output. */
  function Frame(status: Status, body: string): string {
    StatusLine(status) + "\n" + body
  }

  /** The text after the status line of a frame is its body. */
  lemma FrameRest(status: Status, body: string)
    ensures Rest(Frame(status, body)) == body
    ensures FirstLine(Frame(status, body)) == StatusLine(status) + "\n"
  {
    var line := StatusLine(status);
    var f := Frame(status, body);
    assert f[..|line|] == line;
    RestAfterNewline(f, |line|);
    assert f[|line| + 1..] == body;
  }

  /** A frame announces an exit status exactly when it reports `Done`, and it is the reported code. */
  lemma FrameStatus(status: Status, body: string)
    ensures StartsWith(Frame(status, body), "DONE ") <==> status.Done?
    ensures status.Done? ==> AnnouncedExit(Frame(status, body)) == status.code
  {
    var f := Frame(status, body);
    if status.Done? {
      var d := Decimal(status.code);
      assert f[5..] == d + ['\n'] + body;
      LeadingDigitsOf(d, '\n', body);
      DecimalRoundTrip(status.code);
    } else {
      assert f[0] == 'R';
    }
  }

  /**
   Interpreting a frame gives back what it reports: its body as stdout when non-empty, the
   error stream when non-empty, and for `Done(code)` exactly that exit status, then cleanup.
   */
  lemma FrameRoundTrip(status: Status, body: string, err: string)
    ensures ProcessRetrievedData(Some(Frame(status, body)), err) ==
      (if body == [] then [] else [PublishData(body, Stdout)])
      + (if err == [] then [] else [PublishData(err, Stderr)])
      + (if status.Done? then [PublishExit(status.code), Cleanup] else [])
  {
    FrameRest(status, body);
    FrameStatus(status, body);
  }

  /**
   A status line `DONE` without the space after it is not a completion: the output is
   published but no exit status and no cleanup follow.
   */
  lemma BareDoneIsNotCompletion(rest: string, err: string)
    requires rest == [] || rest[0] != ' '
    ensures var effects := ProcessRetrievedData(Some("DONE" + rest), err);
      && (forall i :: 0 <= i < |effects| ==> !effects[i].PublishExit?)
      && Cleanup !in effects
  {
    var o := "DONE" + rest;
    if rest != [] {
      assert o[4] == rest[0];
    }
    assert !StartsWith(o, "DONE ");
  }

  /** `DONE ` with no digits after it completes the job with exit status 0. */
  lemma DoneWithoutDigitsIsZero(rest: string, err: string)
    requires rest == [] || !IsDigit(rest[0])
    ensures var effects := ProcessRetrievedData(Some("DONE " + rest), err);
      |effects| >= 2 && effects[|effects| - 2..] == [PublishExit(0), Cleanup]
  {
    var o := "DONE " + rest;
    assert o[5..] == rest;
    assert StartsWith(o, "DONE ");
  }

  /**
   Exit status and cleanup are published together, at most once each per call, as the
   last two effects; no exit status follows another, and nothing but data repeats.
   */
  lemma ExitAndCleanupTogether(output: Option<string>, err: string)
    ensures var effects := ProcessRetrievedData(output, err);
      && Count(effects, Cleanup) <= 1
      && (Cleanup in effects <==> exists code :: PublishExit(code) in effects)
      && (Cleanup in effects ==> effects[|effects| - 1] == Cleanup && effects[|effects| - 2].PublishExit?)
      && (forall i, j :: 0 <= i < j < |effects| ==> effects[i] != effects[j] || effects[i].PublishData?)
      && forall i, j :: 0 <= i < j < |effects| && effects[i].PublishExit? ==> !effects[j].PublishExit?
  {
    var effects := ProcessRetrievedData(output, err);
    if output.Some? && output.value != [] {
      var o := output.value;
      var data := (if Rest(o) == [] then [] else [PublishData(Rest(o), Stdout)])
        + (if err == [] then [] else [PublishData(err, Stderr)]);
      var status := if StartsWith(o, "DONE ") then [PublishExit(AnnouncedExit(o)), Cleanup] else [];
      assert effects == data + status;
      DataThenStatus(data, status);
    }
  }

  /**
   Published data followed by either nothing or an exit status and cleanup: cleanup occurs
   at most once, exactly when an exit status does, and only the data can repeat.
   */
  lemma DataThenStatus(data: seq<Effect>, status: seq<Effect>)
    requires forall i :: 0 <= i < |data| ==> data[i].PublishData?
    requires status == [] || (|status| == 2 && status[0].PublishExit? && status[1] == Cleanup)
    ensures var effects := data + status;
      && Count(effects, Cleanup) <= 1
      && (Cleanup in effects <==> exists code :: PublishExit(code) in effects)
      && (Cleanup in effects ==> effects[|effects| - 1] == Cleanup && effects[|effects| - 2].PublishExit?)
      && (forall i, j :: 0 <= i < j < |effects| ==> effects[i] != effects[j] || effects[i].PublishData?)
      && forall i, j :: 0 <= i < j < |effects| && effects[i].PublishExit? ==> !effects[j].PublishExit?
  {
    var effects := data + status;
    CountConcat(data, status, Cleanup);
    CountAbsent(data, Cleanup);
    if status != [] {
      assert status == [status[0]] + [Cleanup];
      CountConcat([status[0]], [Cleanup], Cleanup);
      CountSingle(status[0], Cleanup);
      CountSingle(Cleanup, Cleanup);
      assert PublishExit(status[0].code) in effects;
    } else {
      assert effects == data;
    }
  }
}

=== FILE: runner.dfy ===
/**
 The polling script runner: the state it keeps between calls (credential, staged paths,
 upload flag, open session) and its entry points `initialize`, `prepare_start`,
 `upload_control_scripts`, `refresh`, `external_event`, `destroy_session` and `close`.
 Each entry point is a pure function from the runner (and what the transport or the base
 runner answered) to the new runner, the ordered effects, and how the call ended.
 */
module PollingScriptRunner {
  import opened Wrappers
  import opened Text
  import opened FilePath
  import opened Effects
  import opened Retrieval
  import opened ManualMode
  import opened Templates
  import opened Credentials

  /** The options the runner reads when it is built. */
  datatype Options = Options(callbackHost: string, uuid: string, stepId: string)

  datatype Runner = Runner(
    callbackHost: string,
    taskId: string,
    stepId: string,
    otp: Option<string>,
    userMethod: UserMethod,
    /** set by the base runner when it stages the job's own script */
    remoteScript: Option<string>,
    remoteScriptWrapper: Option<string>,
    baseDir: Option<string>,
    controlScriptsUploaded: bool,
    controlScriptPath: Option<string>,
    retrievalScript: Option<string>,
    sessionOpen: bool)

  datatype Built = Built(runner: Runner, issuer: Issuer)

  /** A runner after `destroy_session`, with the effects it performed. */
  datatype Closed = Closed(runner: Runner, effects: seq<Effect>)

  /** A runner after a call that may raise, with the effects performed on the way. */
  datatype Run = Run(runner: Runner, effects: seq<Effect>, outcome: Outcome)

  /**
   `initialize(options, user_method)`: records the job's identity and generates its
   one-time password; `otp` is the fresh password the issuer hands out.
   */
  function Initialize(options: Options, userMethod: UserMethod, issuer: Issuer, otp: string): (b: Built)
    ensures b.runner.otp == Some(otp)
    ensures b.issuer == Generate(issuer, options.uuid, otp)
    ensures b.runner.taskId == options.uuid && b.runner.stepId == options.stepId
    ensures b.runner.callbackHost == options.callbackHost && b.runner.userMethod == userMethod
    ensures !b.runner.controlScriptsUploaded && !b.runner.sessionOpen
  {
    var runner := Runner(
      options.callbackHost, options.uuid, options.stepId, Some(otp), userMethod,
      None, None, None, false, None, None, false);
    Built(runner, Generate(issuer, options.uuid, otp))
  }

  /** `close`: drops the runner's one-time password, if it has one. */
  function Close(r: Runner, issuer: Issuer): (i: Issuer)
    ensures r.otp.Some? ==> (r.taskId, r.otp.value) !in i
    ensures forall p :: p in i ==> p in issuer
    ensures forall p :: p in issuer && (r.otp.None? || p != (r.taskId, r.otp.value)) ==> p in i
  {
    if r.otp.Some? then Drop(issuer, r.taskId, r.otp.value) else issuer
  }

  /** The password generated at construction is valid until `close`, which leaves the issuer as it found it. */
  lemma CredentialLifecycle(options: Options, userMethod: UserMethod, issuer: Issuer, otp: string)
    requires (options.uuid, otp) !in issuer
    ensures var b := Initialize(options, userMethod, issuer, otp);
      && (options.uuid, otp) in b.issuer
      && Close(b.runner, b.issuer) == issuer
  {
  }

  /** Closing twice revokes nothing more than closing once, and does not fail. */
  lemma CloseIsIdempotent(r: Runner, issuer: Issuer)
    ensures Close(r, Close(r, issuer)) == Close(r, issuer)
  {
  }

  /** The control and retrieval scripts, whose contents are fixed for the process. */
  datatype Bundle = Bundle(control: string, retrieve: string)

  /** `env_script` filled in from the runner; a missing password interpolates as the empty string. */
  function EnvScriptOf(r: Runner): string {
    EnvScript(r.callbackHost, r.taskId, r.stepId, ToS(r.otp))
  }

  /**
   What `cp_script_to_remote(content, name)` did: the remote path it copied to, or `None`
   when it raised.
   */
  type Copier = (string, string) -> Option<string>

  /** The three copies `upload_control_scripts` attempts, in order. */
  function ScriptUploads(r: Runner, bundle: Bundle): seq<Effect> {
    [Upload(EnvScriptOf(r), "env.sh"), Upload(bundle.control, "control.sh"), Upload(bundle.retrieve, "retrieve.sh")]
  }

  /** The attempts in `effects` succeeded except possibly the last, which failed exactly when `raised`. */
  predicate CopiesEndAt(effects: seq<Effect>, copy: Copier, raised: bool)
    requires forall i :: 0 <= i < |effects| ==> effects[i].Upload?
  {
    && (forall i :: 0 <= i < |effects| - 1 ==> copy(effects[i].content, effects[i].name).Some?)
    && (effects != [] ==>
          (copy(effects[|effects| - 1].content, effects[|effects| - 1].name).None? <==> raised))
  }

  /**
   `upload_control_scripts`: when not yet done, copies `env.sh`, `control.sh` and
   `retrieve.sh` in that order, records where the control and retrieval scripts went, and
   only then sets the flag. Nothing rescues a failed copy: it ends the call, the copies
   after it are not attempted, and the flag stays unset, so a later call starts over.
   */
  function UploadControlScripts(r: Runner, bundle: Bundle, copy: Copier): (s: Run)
    ensures r.controlScriptsUploaded ==> s == Run(r, [], Returned)
    ensures s.outcome.Raised? ==> s.outcome.error == RemoteError && !s.runner.controlScriptsUploaded
    ensures s.runner.controlScriptsUploaded <==> s.outcome.Returned?
    ensures s.runner.(controlScriptsUploaded := r.controlScriptsUploaded, controlScriptPath := r.controlScriptPath,
                      retrievalScript := r.retrievalScript) == r
    ensures !r.controlScriptsUploaded ==>
      && 1 <= |s.effects| <= 3
      && s.effects == ScriptUploads(r, bundle)[..|s.effects|]
      && CopiesEndAt(s.effects, copy, s.outcome.Raised?)
      && (s.outcome.Returned? ==> |s.effects| == 3)
    ensures !r.controlScriptsUploaded ==>
      && s.runner.controlScriptPath == (if |s.effects| >= 2 && copy(bundle.control, "control.sh").Some?
                                        then copy(bundle.control, "control.sh") else r.controlScriptPath)
      && s.runner.retrievalScript == (if s.outcome.Returned? then copy(bundle.retrieve, "retrieve.sh")
                                      else r.retrievalScript)
  {
    if r.controlScriptsUploaded then Run(r, [], Returned)
    else
      var attempts := ScriptUploads(r, bundle);
      if copy(EnvScriptOf(r), "env.sh").None? then
        Run(r, attempts[..1], Raised(RemoteError))
      else if copy(bundle.control, "control.sh").None? then
        Run(r, attempts[..2], Raised(RemoteError))
      else
        var withControl := r.(controlScriptPath := copy(bundle.control, "control.sh"));
        if copy(bundle.retrieve, "retrieve.sh").None? then
          Run(withControl, attempts, Raised(RemoteError))
        else
          Run(withControl.(retrievalScript := copy(bundle.retrieve, "retrieve.sh"), controlScriptsUploaded := true),
              attempts, Returned)
  }

  /** Number of uploads of the file `name` among `effects`. */
  function UploadsOf(effects: seq<Effect>, name: string): nat {
    if effects == [] then 0
    else (if effects[0].Upload? && effects[0].name == name then 1 else 0) + UploadsOf(effects[1..], name)
  }

  /**
   Once staging has succeeded, staging again, whatever it is given, uploads nothing and
   changes nothing, so each script has been uploaded exactly once.
   */
  lemma UploadIsIdempotent(r: Runner, bundle: Bundle, copy: Copier, bundle': Bundle, copy': Copier)
    requires !r.controlScriptsUploaded
    ensures var first := UploadControlScripts(r, bundle, copy);
      var second := UploadControlScripts(first.runner, bundle', copy');
      first.outcome.Returned? ==>
        && second == Run(first.runner, [], Returned)
        && UploadsOf(first.effects + second.effects, "env.sh") == 1
        && UploadsOf(first.effects + second.effects, "control.sh") == 1
        && UploadsOf(first.effects + second.effects, "retrieve.sh") == 1
  {
    var first := UploadControlScripts(r, bundle, copy);
    var second := UploadControlScripts(first.runner, bundle', copy');
    if first.outcome.Returned? {
      assert first.effects + second.effects == first.effects;
      assert first.effects == ScriptUploads(r, bundle);
      UploadsOfScripts(EnvScriptOf(r), bundle);
    }
  }

  /** Each of the three script names is uploaded once by the staging sequence. */
  lemma UploadsOfScripts(env: string, bundle: Bundle)
    ensures var e := [Upload(env, "env.sh"), Upload(bundle.control, "control.sh"),
                      Upload(bundle.retrieve, "retrieve.sh")];
      && UploadsOf(e, "env.sh") == 1
      && UploadsOf(e, "control.sh") == 1
      && UploadsOf(e, "retrieve.sh") == 1
  {
    var e := [Upload(env, "env.sh"), Upload(bundle.control, "control.sh"),
              Upload(bundle.retrieve, "retrieve.sh")];
    var e1 := e[1..];
    var e2 := e1[1..];
    assert e2[1..] == [];
    assert UploadsOf(e2, "env.sh") == 0 && UploadsOf(e2, "control.sh") == 0 && UploadsOf(e2, "retrieve.sh") == 1;
    assert UploadsOf(e1, "env.sh") == 0 && UploadsOf(e1, "control.sh") == 1 && UploadsOf(e1, "retrieve.sh") == 1;
  }

  /**
   A staging that failed is not remembered: the next call copies `env.sh` again, first,
   so over the two calls it is uploaded twice. When only the retrieval script failed, the
   control script's path is already recorded although the flag is unset.
   */
  lemma FailedUploadIsRetried(r: Runner, bundle: Bundle, copy: Copier, bundle': Bundle, copy': Copier)
    requires !r.controlScriptsUploaded
    ensures var first := UploadControlScripts(r, bundle, copy);
      var second := UploadControlScripts(first.runner, bundle', copy');
      first.outcome.Raised? ==>
        && !first.runner.controlScriptsUploaded
        && second.effects[0] == Upload(EnvScriptOf(r), "env.sh")
        && UploadsOf(first.effects + second.effects, "env.sh") == 2
        && (|first.effects| == 3 ==> first.runner.controlScriptPath == copy(bundle.control, "control.sh") != None)
  {
    var first := UploadControlScripts(r, bundle, copy);
    var second := UploadControlScripts(first.runner, bundle', copy');
    if first.outcome.Raised? {
      assert EnvScriptOf(first.runner) == EnvScriptOf(r);
      var e := ScriptUploads(r, bundle);
      UploadsOfScripts(EnvScriptOf(r), bundle);
      UploadsOfPrefix(e, first.effects);
      UploadsOfPrefix(ScriptUploads(first.runner, bundle'), second.effects);
      UploadsOfConcat(first.effects, second.effects, "env.sh");
    }
  }

  /** A non-empty prefix of the staging sequence uploads `env.sh` once. */
  lemma UploadsOfPrefix(e: seq<Effect>, p: seq<Effect>)
    requires |e| == 3 && e[0].Upload? && e[0].name == "env.sh"
    requires forall i :: 1 <= i < 3 ==> e[i].Upload? && e[i].name != "env.sh"
    requires 1 <= |p| <= 3 && p == e[..|p|]
    ensures UploadsOf(p, "env.sh") == 1
  {
    var p1 := p[1..];
    if |p1| >= 1 {
      var p2 := p1[1..];
      if |p2| >= 1 {
        assert p2[1..] == [];
      }
      assert UploadsOf(p2, "env.sh") == 0;
    }
    assert UploadsOf(p1, "env.sh") == 0;
  }

  /** Counting uploads over a concatenation adds up. */
  lemma {:induction false} UploadsOfConcat(a: seq<Effect>, b: seq<Effect>, name: string)
    ensures UploadsOf(a + b, name) == UploadsOf(a, name) + UploadsOf(b, name)
    decreases |a|
  {
    if a == [] {
      assert a + b == b;
    } else {
      assert (a + b)[1..] == a[1..] + b;
      UploadsOfConcat(a[1..], b, name);
    }
  }

  /**
   `prepare_start`: records the staged script, its wrapper and `File.dirname` of it as the
   base directory, then stages the control scripts exactly as `upload_control_scripts`
   would for the runner before staging: the same copies, the same paths, the same outcome,
   and no other field changes.
   */
  function PrepareStart(r: Runner, remoteScript: string, wrapper: string, bundle: Bundle, copy: Copier): (s: Run)
    ensures s.runner.remoteScript == Some(remoteScript)
    ensures s.runner.remoteScriptWrapper == Some(wrapper)
    ensures s.runner.baseDir == Some(Dirname(remoteScript))
    ensures var u := UploadControlScripts(r, bundle, copy);
      && s.effects == u.effects
      && s.outcome == u.outcome
      && s.runner.controlScriptsUploaded == u.runner.controlScriptsUploaded
      && s.runner.controlScriptPath == u.runner.controlScriptPath
      && s.runner.retrievalScript == u.runner.retrievalScript
    ensures s.runner == UploadControlScripts(r, bundle, copy).runner.(remoteScript := Some(remoteScript),
                                                                     remoteScriptWrapper := Some(wrapper),
                                                                     baseDir := Some(Dirname(remoteScript)))
    ensures s.runner.taskId == r.taskId && s.runner.otp == r.otp && s.runner.sessionOpen == r.sessionOpen
    ensures s.runner.userMethod == r.userMethod
  {
    var staged := r.(remoteScript := Some(remoteScript), remoteScriptWrapper := Some(wrapper),
                     baseDir := Some(Dirname(remoteScript)));
    assert EnvScriptOf(staged) == EnvScriptOf(r);
    UploadControlScripts(staged, bundle, copy)
  }

  /** `initialization_script` filled in from the runner. */
  function InitializationScriptOf(r: Runner): string {
    InitializationScript(ToS(r.controlScriptPath), r.userMethod, ToS(r.baseDir),
                         ToS(r.remoteScriptWrapper), ToS(r.remoteScript))
  }

  /**
   After `prepare_start` stages the script as `dir/name` and copies the control script,
   the launch command exports the control script's path and sends the job's output and
   exit code to files in `dir`.
   */
  lemma LaunchWritesIntoScriptDir(r: Runner, dir: string, name: string, wrapper: string,
                                  bundle: Bundle, copy: Copier)
    requires !r.controlScriptsUploaded
    requires copy(EnvScriptOf(r), "env.sh").Some? && copy(bundle.control, "control.sh").Some?
    requires dir != [] && dir[|dir| - 1] != '/' && !StartsWith(dir, "//")
    requires name != [] && forall i :: 0 <= i < |name| ==> name[i] != '/'
    requires NoNewline(dir) && NoNewline(name) && NoNewline(wrapper)
    requires NoNewline(copy(bundle.control, "control.sh").value)
    requires NoNewline(r.userMethod.effectiveUser) && NoNewline(ToS(r.userMethod.cliCommandPrefix))
    ensures var s := PrepareStart(r, dir + "/" + name, wrapper, bundle, copy);
      var ls := Lines(InitializationScriptOf(s.runner));
      && |ls| == 3
      && ls[0] == Assignment("export CONTROL_SCRIPT", copy(bundle.control, "control.sh").value) + "\n"
      && Contains(ls[2], dir + "/output")
      && Contains(ls[2], dir + "/init_exit_code")
  {
    var script := dir + "/" + name;
    var controlScriptPath := copy(bundle.control, "control.sh").value;
    assert NoNewline(script) by {
      NoNewlineConcat(dir, "/");
      NoNewlineConcat(dir + "/", name);
    }
    StagedChild(r, dir, name, wrapper, bundle, copy);
    LaunchWritesInto(controlScriptPath, r.userMethod, dir, wrapper, script);
  }

  /** The launch command of a runner staged with `dir/name` is built from `dir` and the uploaded paths. */
  lemma StagedChild(r: Runner, dir: string, name: string, wrapper: string, bundle: Bundle, copy: Copier)
    requires !r.controlScriptsUploaded
    requires copy(EnvScriptOf(r), "env.sh").Some? && copy(bundle.control, "control.sh").Some?
    requires dir != [] && dir[|dir| - 1] != '/' && !StartsWith(dir, "//")
    requires name != [] && forall i :: 0 <= i < |name| ==> name[i] != '/'
    ensures var s := PrepareStart(r, dir + "/" + name, wrapper, bundle, copy);
      InitializationScriptOf(s.runner)
        == InitializationScript(copy(bundle.control, "control.sh").value, r.userMethod, dir, wrapper, dir + "/" + name)
  {
    DirnameOfChild(dir, name);
    var u := UploadControlScripts(r, bundle, copy);
    assert |u.effects| >= 2;
  }

  /** The effects of `destroy_session` when a session is or is not open. */
  function Closing(open: bool): seq<Effect> {
    if open then [CloseSession] else []
  }

  /**
   `destroy_session`: closes the session when there is one, and does nothing otherwise.
   `close_session` belongs to the base runner; it is taken to return and to leave no session.
   */
  function DestroySession(r: Runner): (s: Closed)
    ensures !s.runner.sessionOpen
    ensures s.runner == r.(sessionOpen := false)
    ensures r.sessionOpen ==> s.effects == [CloseSession]
    ensures !r.sessionOpen ==> s == Closed(r, [])
  {
    if r.sessionOpen then Closed(r.(sessionOpen := false), [CloseSession]) else Closed(r, [])
  }

  /** A second `destroy_session` finds no session and does nothing. */
  lemma DestroySessionIsIdempotent(r: Runner)
    ensures var first := DestroySession(r);
      DestroySession(first.runner) == Closed(first.runner, [])
  {
  }

  /** What `run_sync` of the retrieval command gave: the process's output streams, or an exception. */
  datatype SyncResult = Completed(stdout: Option<string>, stderr: Option<string>) | Failed

  /**
   The transport's answer to one polling attempt, and whether a session is open when the
   `ensure` clause runs.
   */
  datatype Transport = Transport(result: SyncResult, sessionOpen: bool)

  /** The command `refresh` runs: the user method's prefix, a space, the retrieval script. */
  function RetrievalCommand(r: Runner): string {
    ToS(r.userMethod.cliCommandPrefix) + " " + ToS(r.retrievalScript)
  }

  /** The retrieval output does not open or close sessions. */
  lemma ProcessingLeavesSessionsAlone(output: Option<string>, err: string)
    ensures CloseSession !in ProcessRetrievedData(output, err)
  {
  }

  /**
   `refresh`: runs the retrieval command, feeds its chomped output to
   `process_retrieved_data`, and always closes the session. When `run_sync` raises, `pm`
   stays nil and `pm.stdout` raises `NoMethodError` after the session is closed.
   */
  function Refresh(r: Runner, t: Transport): (run: Run)
    ensures run.runner == r.(sessionOpen := false)
    ensures |run.effects| >= 1 && run.effects[0] == RunSync(RetrievalCommand(r))
    ensures CloseSession in run.effects <==> t.sessionOpen
    ensures t.sessionOpen ==> run.effects[|run.effects| - 1] == CloseSession
    ensures t.result.Failed? ==>
      && run.outcome == Raised(NoMethodError)
      && run.effects == [RunSync(RetrievalCommand(r))] + Closing(t.sessionOpen)
    ensures t.result.Completed? ==>
      && run.outcome == Returned
      && run.effects == [RunSync(RetrievalCommand(r))]
         + ProcessRetrievedData(Some(Chomp(ToS(t.result.stdout))), Chomp(ToS(t.result.stderr)))
         + Closing(t.sessionOpen)
  {
    var command := RetrievalCommand(r);
    var attempt := r.(sessionOpen := t.sessionOpen);
    var body :=
      if t.result.Failed? then Update([], Raised(NoMethodError))
      else (
        var output, err := Chomp(ToS(t.result.stdout)), Chomp(ToS(t.result.stderr));
        ProcessingLeavesSessionsAlone(Some(output), err);
        Update(ProcessRetrievedData(Some(output), err), Returned));
    var closed := DestroySession(attempt);
    Run(closed.runner, [RunSync(command)] + body.effects + closed.effects, body.outcome)
  }

  /**
   `refresh` as evidently intended: a polling attempt that fails at the transport is logged
   and yields no update, instead of raising.
   */
  function RefreshGuarded(r: Runner, t: Transport): (run: Run)
    ensures run.runner == r.(sessionOpen := false)
    ensures run.outcome == Returned
    ensures CloseSession in run.effects <==> t.sessionOpen
    ensures t.result.Failed? ==> run.effects == [RunSync(RetrievalCommand(r))] + Closing(t.sessionOpen)
    ensures t.result.Completed? ==> run == Refresh(r, t)
  {
    match t.result
    case Failed =>
      var closed := DestroySession(r.(sessionOpen := t.sessionOpen));
      Run(closed.runner, [RunSync(RetrievalCommand(r))] + closed.effects, Returned)
    case Completed(_, _) => Refresh(r, t)
  }

  /**
   The two differ exactly on transport failures: there `refresh` as written raises
   `NoMethodError` where the guarded one returns, with the same effects otherwise.
   */
  lemma TransportFailureRaises(r: Runner, open: bool)
    ensures var t := Transport(Failed, open);
      && Refresh(r, t).outcome == Raised(NoMethodError)
      && RefreshGuarded(r, t).outcome == Returned
      && Refresh(r, t).effects == RefreshGuarded(r, t).effects
  {
  }

  /**
   A retrieval whose output is a frame ended by a newline: `refresh` publishes the frame's
   body, and for `Done(code)` exactly that exit status followed by cleanup, then closes the session.
   */
  lemma RefreshPublishesFrame(r: Runner, status: Status, body: string, open: bool)
    requires !EndsWith(body, "\r")
    ensures var run := Refresh(r, Transport(Completed(Some(Frame(status, body + "\n")), None), open));
      && run.outcome == Returned
      && run.effects == [RunSync(RetrievalCommand(r))]
         + (if body == [] then [] else [PublishData(body, Stdout)])
         + (if status.Done? then [PublishExit(status.code), Cleanup] else [])
         + Closing(open)
  {
    var framed := Frame(status, body + "\n");
    ChompFrame(status, body);
    RefreshWithoutStderr(r, framed, open);
    FrameRoundTrip(status, body, []);
    var published := if body == [] then [] else [PublishData(body, Stdout)];
    var exit := if status.Done? then [PublishExit(status.code), Cleanup] else [];
    var run := Refresh(r, Transport(Completed(Some(framed), None), open));
    var sync := [RunSync(RetrievalCommand(r))];
    assert ProcessRetrievedData(Some(Frame(status, body)), []) == published + exit by {
      assert published + [] == published;
    }
    assert run.effects == sync + (published + exit) + Closing(open);
    AppendAssociates(sync, published, exit);
  }

  lemma AppendAssociates(a: seq<Effect>, b: seq<Effect>, c: seq<Effect>)
    ensures a + (b + c) == a + b + c
  {
  }

  /** A retrieval that printed nothing on stderr publishes what the chomped stdout says. */
  lemma RefreshWithoutStderr(r: Runner, stdout: string, open: bool)
    ensures var run := Refresh(r, Transport(Completed(Some(stdout), None), open));
      && run.outcome == Returned
      && run.effects == [RunSync(RetrievalCommand(r))] + ProcessRetrievedData(Some(Chomp(stdout)), []) + Closing(open)
  {
    assert Chomp(ToS(None)) == [];
  }

  /** `chomp` takes off the newline that ends a frame and nothing else. */
  lemma ChompFrame(status: Status, body: string)
    requires !EndsWith(body, "\r")
    ensures Chomp(Frame(status, body + "\n")) == Frame(status, body)
  {
    var framed := Frame(status, body + "\n");
    var line := StatusLine(status);
    assert framed == Frame(status, body) + "\n";
    assert framed[|framed| - 1] == '\n';
    if body != [] {
      assert framed[|framed| - 2] == body[|body| - 1];
      assert body[|body| - 1..] == [body[|body| - 1]];
    } else {
      assert framed[|framed| - 2] == '\n';
    }
    assert !EndsWith(framed, "\r\n");
  }

  /** What the base runner's `run_refresh` did: whether it left a session open and how it ended. */
  datatype RefreshReport = RefreshReport(sessionOpen: bool, outcome: Outcome)

  predicate IsManualMode(data: map<string, Value>) {
    Truthy(Lookup(data, "manual_mode"))
  }

  /**
   Whether a session is open when the `ensure` of a manual-mode event runs: cleanup is the
   only remote work in that branch, so without it the session is as the event found it,
   and after it the session is whatever cleanup's remote command left (`cleanupOpen`).
   */
  function ManualSessionAtEnsure(r: Runner, u: Update, cleanupOpen: bool): bool {
    if Cleanup in u.effects then cleanupOpen else r.sessionOpen
  }

  /**
   `external_event(event)`: a manual-mode payload is interpreted directly; any other
   payload triggers exactly one `run_refresh` and nothing of it is read. Either way an open
   session is closed before the call ends, whether it returns or raises. `report` is what
   `run_refresh` did; `cleanupOpen` is whether a session is open after a manual-mode cleanup.
   */
  function ExternalEvent(r: Runner, data: map<string, Value>, decode: string -> string,
                         report: RefreshReport, cleanupOpen: bool): (run: Run)
    ensures run.runner == r.(sessionOpen := false)
    ensures IsManualMode(data) ==>
      var u := LoadEventUpdates(data, decode);
      && run.effects == u.effects + Closing(ManualSessionAtEnsure(r, u, cleanupOpen))
      && run.outcome == u.outcome
      && RunRefresh !in run.effects
    ensures !IsManualMode(data) ==>
      && run.effects == [RunRefresh] + Closing(report.sessionOpen)
      && run.outcome == report.outcome
  {
    if IsManualMode(data) then
      var u := LoadEventUpdates(data, decode);
      var closed := DestroySession(r.(sessionOpen := ManualSessionAtEnsure(r, u, cleanupOpen)));
      Run(closed.runner, u.effects + closed.effects, u.outcome)
    else
      var closed := DestroySession(r.(sessionOpen := report.sessionOpen));
      Run(closed.runner, [RunRefresh] + closed.effects, report.outcome)
  }

  /** An event that is not in manual mode is handled the same whatever else it carries. */
  lemma PollRequestIgnoresPayload(r: Runner, data: map<string, Value>, data': map<string, Value>,
                                  decode: string -> string, decode': string -> string, report: RefreshReport,
                                  cleanupOpen: bool, cleanupOpen': bool)
    requires !IsManualMode(data) && !IsManualMode(data')
    ensures ExternalEvent(r, data, decode, report, cleanupOpen) == ExternalEvent(r, data', decode', report, cleanupOpen')
  {
  }

  /**
   `external_event` closes the session open at its `ensure` exactly once, as its last
   effect, including one that cleanup used, and leaves none open.
   */
  lemma ExternalEventReleasesSession(r: Runner, data: map<string, Value>, decode: string -> string,
                                     report: RefreshReport, cleanupOpen: bool)
    ensures var run := ExternalEvent(r, data, decode, report, cleanupOpen);
      var open := if IsManualMode(data) then ManualSessionAtEnsure(r, LoadEventUpdates(data, decode), cleanupOpen)
                  else report.sessionOpen;
      && !run.runner.sessionOpen
      && Count(run.effects, CloseSession) == (if open then 1 else 0)
      && (open ==> run.effects[|run.effects| - 1] == CloseSession)
  {
    var run := ExternalEvent(r, data, decode, report, cleanupOpen);
    if IsManualMode(data) {
      var u := LoadEventUpdates(data, decode);
      var open := ManualSessionAtEnsure(r, u, cleanupOpen);
      CountConcat(u.effects, Closing(open), CloseSession);
      assert Count(u.effects, CloseSession) == 0 by {
        CountAbsent(u.effects, CloseSession);
      }
    } else {
      CountConcat([RunRefresh], Closing(report.sessionOpen), CloseSession);
    }
  }

  /** The runner after polling once with each transport answer in `answers`, in order. */
  function PollAll(r: Runner, answers: seq<Transport>): (p: Runner)
    ensures p == r.(sessionOpen := p.sessionOpen)
    ensures answers != [] ==> !p.sessionOpen
    decreases |answers|
  {
    if answers == [] then r
    else PollAll(Refresh(r, answers[0]).runner, answers[1..])
  }

  /**
   Built, staged (whether or not the copies succeed), polled any number of times with
   `refresh` as written and closed, the runner leaves the issuer as it found it.
   */
  lemma LifecycleReleasesCredential(options: Options, userMethod: UserMethod, issuer: Issuer, otp: string,
                                    remoteScript: string, wrapper: string, bundle: Bundle,
                                    copy: Copier, answers: seq<Transport>)
    requires (options.uuid, otp) !in issuer
    ensures var b := Initialize(options, userMethod, issuer, otp);
      var staged := PrepareStart(b.runner, remoteScript, wrapper, bundle, copy);
      var polled := PollAll(staged.runner, answers);
      Close(polled, b.issuer) == issuer
  {
  }
}

=== FILE: templates.dfy ===
/**
 The shell text the runner generates: the environment script sourced by the control
 scripts (`env_script`) and the launch command (`initialization_script`). Both are
 non-squiggly `<<-` heredocs (indentation is kept) whose lines carry a `| ` margin that
 `gsub(/^ +\| /, '')` removes after interpolation.
 */
module Templates {
  import opened Wrappers
  import opened Text

  /** The user the job runs as and the command prefix that switches to it (`nil` when none is needed). */
  datatype UserMethod = UserMethod(effectiveUser: string, cliCommandPrefix: Option<string>)

  /** A heredoc line as written in the source: six spaces of indentation, the `| ` margin, the content. */
  function HeredocLine(content: string): string {
    "      | " + content + "\n"
  }

  /** Number of spaces `s` starts with. */
  function LeadingSpaces(s: string): (n: nat)
    ensures n <= |s|
    ensures forall i :: 0 <= i < n ==> s[i] == ' '
    ensures n < |s| ==> s[n] != ' '
  {
    if s != [] && s[0] == ' ' then 1 + LeadingSpaces(s[1..]) else 0
  }

  /** Length of the match of `/^ +\| /` at the start of `line`, 0 when it does not match there. */
  function MarginWidth(line: string): nat {
    var n := LeadingSpaces(line);
    if 0 < n && n + 2 <= |line| && line[n] == '|' && line[n + 1] == ' ' then n + 2 else 0
  }

  /**
   `s.gsub(/^ +\| /, '')`: every line that starts with spaces and `| ` loses that margin.
   Only margins are removed, so the text never grows, and a text without spaces is unchanged.
   */
  function StripMargin(s: string): (r: string)
    ensures |r| <= |s|
    ensures (forall i :: 0 <= i < |s| ==> s[i] != ' ') ==> r == s
    decreases |s|
  {
    if s == [] then []
    else
      var line, rest := FirstLine(s), Rest(s);
      assert s == line + rest;
      line[MarginWidth(line)..] + StripMargin(rest)
  }

  /** Stripping the margin of a heredoc line whose content has no newline leaves the content and its newline. */
  lemma StripHeredocLine(content: string, rest: string)
    requires NoNewline(content)
    ensures StripMargin(HeredocLine(content) + rest) == content + "\n" + StripMargin(rest)
  {
    var line := HeredocLine(content);
    var s := line + rest;
    var i := |line| - 1;
    assert s[..i] == "      | " + content;
    RestAfterNewline(s, i);
    assert FirstLine(s) == line && Rest(s) == rest;
    assert LeadingSpaces(line) == 6 by {
      assert line[6] == '|';
    }
    assert line[8..] == content + "\n";
  }

  /** The heredoc whose lines carry the given contents. */
  function Heredoc(contents: seq<string>): string {
    if contents == [] then [] else HeredocLine(contents[0]) + Heredoc(contents[1..])
  }

  /** The given contents, each ended by a newline, as a sequence of lines. */
  function Terminated(contents: seq<string>): (ls: seq<string>)
    ensures |ls| == |contents|
    ensures forall i :: 0 <= i < |contents| ==> ls[i] == contents[i] + "\n"
  {
    if contents == [] then [] else [contents[0] + "\n"] + Terminated(contents[1..])
  }

  /**
   Once the margin is stripped, a heredoc of newline-free contents consists of exactly
   those contents, one per line, in order.
   */
  lemma {:induction false} HeredocLines(contents: seq<string>)
    requires forall i :: 0 <= i < |contents| ==> NoNewline(contents[i])
    ensures Lines(StripMargin(Heredoc(contents))) == Terminated(contents)
    ensures Concat(Terminated(contents)) == StripMargin(Heredoc(contents))
  {
    if contents != [] {
      var c := contents[0];
      HeredocLines(contents[1..]);
      StripHeredocLine(c, Heredoc(contents[1..]));
      LinesOfLine(c, StripMargin(Heredoc(contents[1..])));
      assert Terminated(contents)[1..] == Terminated(contents[1..]);
    }
  }

  /** A shell assignment of a double-quoted value: `NAME="value"`. */
  function Assignment(name: string, value: string): string {
    name + "=\"" + value + "\""
  }

  lemma NoNewlineConcat(a: string, b: string)
    requires NoNewline(a) && NoNewline(b)
    ensures NoNewline(a + b)
  {
    assert forall i :: 0 <= i < |a + b| ==> (a + b)[i] == if i < |a| then a[i] else b[i - |a|];
  }

  lemma AssignmentNoNewline(name: string, value: string)
    requires NoNewline(name) && NoNewline(value)
    ensures NoNewline(Assignment(name, value))
  {
    NoNewlineConcat(name, "=\"");
    NoNewlineConcat(name + "=\"", value);
    NoNewlineConcat(name + "=\"" + value, "\"");
  }

  /** The contents of the `env_script` heredoc, one per line, before the margin is stripped. */
  function EnvContents(callbackHost: string, taskId: string, stepId: string, otp: string): seq<string> {
    [Assignment("CALLBACK_HOST", callbackHost),
     Assignment("TASK_ID", taskId),
     Assignment("STEP_ID", stepId),
     Assignment("OTP", otp)]
  }

  lemma EnvContentsFlat(callbackHost: string, taskId: string, stepId: string, otp: string)
    requires NoNewline(callbackHost) && NoNewline(taskId) && NoNewline(stepId) && NoNewline(otp)
    ensures var contents := EnvContents(callbackHost, taskId, stepId, otp);
      forall i :: 0 <= i < |contents| ==> NoNewline(contents[i])
  {
    AssignmentNoNewline("CALLBACK_HOST", callbackHost);
    AssignmentNoNewline("TASK_ID", taskId);
    AssignmentNoNewline("STEP_ID", stepId);
    AssignmentNoNewline("OTP", otp);
  }

  /**
   `env_script`: the job's callback host, task id, step id and one-time password as shell
   variables. For values without newlines the script is exactly four lines assigning
   `CALLBACK_HOST`, `TASK_ID`, `STEP_ID` and `OTP`, in that order, each value inserted
   verbatim between double quotes.
   */
  function EnvScript(callbackHost: string, taskId: string, stepId: string, otp: string): (script: string)
    ensures NoNewline(callbackHost) && NoNewline(taskId) && NoNewline(stepId) && NoNewline(otp) ==>
      var ls := Lines(script);
      && |ls| == 4
      && ls[0] == Assignment("CALLBACK_HOST", callbackHost) + "\n"
      && ls[1] == Assignment("TASK_ID", taskId) + "\n"
      && ls[2] == Assignment("STEP_ID", stepId) + "\n"
      && ls[3] == Assignment("OTP", otp) + "\n"
  {
    var contents := EnvContents(callbackHost, taskId, stepId, otp);
    var script := StripMargin(Heredoc(contents));
    if NoNewline(callbackHost) && NoNewline(taskId) && NoNewline(stepId) && NoNewline(otp) then
      EnvContentsFlat(callbackHost, taskId, stepId, otp);
      HeredocLines(contents);
      script
    else script
  }

  /** The line that changes the owner of the working directory, present only when a command prefix is configured. */
  function ChownLine(user: UserMethod, baseDir: string): string {
    if user.cliCommandPrefix.Some? then "chown " + user.effectiveUser + " " + baseDir else ""
  }

  /** Where the launched job's combined output goes. */
  function OutputFile(baseDir: string): string {
    baseDir + "/output"
  }

  /** Where the launched job's exit code goes. */
  function ExitCodeFile(baseDir: string): string {
    baseDir + "/init_exit_code"
  }

  /** The control script invocation that reports the end of the initial run. */
  function InitFinish(controlScriptPath: string): string {
    controlScriptPath + " init-script-finish"
  }

  /** The background launch: run the script into `output`, record its exit code, then signal the control script. */
  function LaunchLine(controlScriptPath: string, user: UserMethod, baseDir: string,
                      wrapper: string, remoteScript: string): string
  {
    ToS(user.cliCommandPrefix) + " sh -c '" + MainScript(wrapper, remoteScript, baseDir) + "; "
      + InitFinish(controlScriptPath) + "' " + CloseFds() + " &"
  }

  function CloseStdin(): string {
    "</dev/null"
  }

  /** Detaches the launched shell from the session's streams. */
  function CloseFds(): string {
    CloseStdin() + " >/dev/null 2>/dev/null"
  }

  /** The job itself: the wrapper runs the script, its exit code and its output go to files in `baseDir`. */
  function MainScript(wrapper: string, remoteScript: string, baseDir: string): string {
    "(" + wrapper + " " + remoteScript + " " + CloseStdin() + " 2>&1; echo $?>"
      + ExitCodeFile(baseDir) + ") >" + OutputFile(baseDir)
  }

  /** The contents of the `initialization_script` heredoc, one per line, before the margin is stripped. */
  function InitializationContents(controlScriptPath: string, user: UserMethod, baseDir: string,
                                  wrapper: string, remoteScript: string): seq<string>
  {
    [Assignment("export CONTROL_SCRIPT", controlScriptPath),
     ChownLine(user, baseDir),
     LaunchLine(controlScriptPath, user, baseDir, wrapper, remoteScript)]
  }

  lemma InitializationContentsFlat(controlScriptPath: string, user: UserMethod, baseDir: string,
                                   wrapper: string, remoteScript: string)
    requires NoNewline(controlScriptPath) && NoNewline(user.effectiveUser) && NoNewline(ToS(user.cliCommandPrefix))
    requires NoNewline(baseDir) && NoNewline(wrapper) && NoNewline(remoteScript)
    ensures var contents := InitializationContents(controlScriptPath, user, baseDir, wrapper, remoteScript);
      forall i :: 0 <= i < |contents| ==> NoNewline(contents[i])
  {
    AssignmentNoNewline("export CONTROL_SCRIPT", controlScriptPath);
    if user.cliCommandPrefix.Some? {
      NoNewlineConcat("chown ", user.effectiveUser);
      NoNewlineConcat("chown " + user.effectiveUser, " ");
      NoNewlineConcat("chown " + user.effectiveUser + " ", baseDir);
    }
    LaunchLineNoNewline(controlScriptPath, user, baseDir, wrapper, remoteScript);
  }

  /**
   `initialization_script`: exports the control script's path, hands the directory over,
   launches the job. For values without newlines it is exactly three lines: the export of
   `CONTROL_SCRIPT`, the `chown` line (empty when no command prefix is configured), and the
   backgrounded `sh -c` launch.
   */
  function InitializationScript(controlScriptPath: string, user: UserMethod, baseDir: string,
                                wrapper: string, remoteScript: string): (script: string)
    ensures (NoNewline(controlScriptPath) && NoNewline(user.effectiveUser) && NoNewline(ToS(user.cliCommandPrefix))
             && NoNewline(baseDir) && NoNewline(wrapper) && NoNewline(remoteScript)) ==>
      var ls := Lines(script);
      && |ls| == 3
      && ls[0] == Assignment("export CONTROL_SCRIPT", controlScriptPath) + "\n"
      && (user.cliCommandPrefix.Some? ==> ls[1] == "chown " + user.effectiveUser + " " + baseDir + "\n")
      && (user.cliCommandPrefix.None? ==> ls[1] == "\n")
      && ls[2] == LaunchLine(controlScriptPath, user, baseDir, wrapper, remoteScript) + "\n"
  {
    var contents := InitializationContents(controlScriptPath, user, baseDir, wrapper, remoteScript);
    var script := StripMargin(Heredoc(contents));
    if NoNewline(controlScriptPath) && NoNewline(user.effectiveUser) && NoNewline(ToS(user.cliCommandPrefix))
      && NoNewline(baseDir) && NoNewline(wrapper) && NoNewline(remoteScript)
    then
      InitializationContentsFlat(controlScriptPath, user, baseDir, wrapper, remoteScript);
      HeredocLines(contents);
      script
    else script
  }

  lemma ContainsItself(t: string)
    ensures Contains(t, t)
  {
    assert t[..|t|] == t;
  }

  /** Text found in `b` is found in `a + b`. */
  lemma {:induction false} ContainsAfter(a: string, b: string, t: string)
    requires Contains(b, t)
    ensures Contains(a + b, t)
    decreases |a|
  {
    if a == [] {
      assert a + b == b;
    } else {
      assert (a + b)[1..] == a[1..] + b;
      ContainsAfter(a[1..], b, t);
    }
  }

  /** Text found in `a` is found in `a + b`. */
  lemma {:induction false} ContainsBefore(a: string, b: string, t: string)
    requires Contains(a, t)
    ensures Contains(a + b, t)
    decreases |a|
  {
    if StartsWith(a, t) {
      assert (a + b)[..|t|] == a[..|t|];
    } else {
      assert (a + b)[1..] == a[1..] + b;
      ContainsBefore(a[1..], b, t);
    }
  }

  /** Text found in `m` is found in `a + m + b`. */
  lemma ContainsInside(a: string, m: string, b: string, t: string)
    requires Contains(m, t)
    ensures Contains(a + m + b, t)
  {
    ContainsAfter(a, m, t);
    ContainsBefore(a + m, b, t);
  }

  /** The job's exit code and output files both appear in its command. */
  lemma MainScriptWrites(wrapper: string, remoteScript: string, baseDir: string)
    ensures Contains(MainScript(wrapper, remoteScript, baseDir), ExitCodeFile(baseDir))
    ensures Contains(MainScript(wrapper, remoteScript, baseDir), OutputFile(baseDir))
  {
    var head := "(" + wrapper + " " + remoteScript + " " + CloseStdin() + " 2>&1; echo $?>";
    var exitFile, outFile := ExitCodeFile(baseDir), OutputFile(baseDir);
    assert MainScript(wrapper, remoteScript, baseDir) == head + exitFile + (") >" + outFile);
    ContainsItself(exitFile);
    ContainsInside(head, exitFile, ") >" + outFile, exitFile);
    assert MainScript(wrapper, remoteScript, baseDir) == head + exitFile + ") >" + outFile + "";
    ContainsItself(outFile);
    ContainsInside(head + exitFile + ") >", outFile, "", outFile);
  }

  /** The launch line writes the job's output and exit code under `baseDir` and signals the control script. */
  lemma LaunchLineShape(controlScriptPath: string, user: UserMethod, baseDir: string,
                        wrapper: string, remoteScript: string)
    ensures var l := LaunchLine(controlScriptPath, user, baseDir, wrapper, remoteScript);
      && StartsWith(l, ToS(user.cliCommandPrefix) + " sh -c '(")
      && Contains(l, baseDir + "/init_exit_code")
      && Contains(l, baseDir + "/output")
      && Contains(l, controlScriptPath + " init-script-finish")
      && EndsWith(l, " &")
  {
    var main, finish := MainScript(wrapper, remoteScript, baseDir), InitFinish(controlScriptPath);
    var p1 := ToS(user.cliCommandPrefix) + " sh -c '";
    var l := LaunchLine(controlScriptPath, user, baseDir, wrapper, remoteScript);
    assert Contains(l, ExitCodeFile(baseDir)) && Contains(l, OutputFile(baseDir)) by {
      var tail := "; " + finish + "' " + CloseFds() + " &";
      assert l == p1 + main + tail;
      MainScriptWrites(wrapper, remoteScript, baseDir);
      ContainsInside(p1, main, tail, ExitCodeFile(baseDir));
      ContainsInside(p1, main, tail, OutputFile(baseDir));
    }
    assert Contains(l, finish) by {
      var tail := "' " + CloseFds() + " &";
      assert l == p1 + main + "; " + finish + tail;
      ContainsItself(finish);
      ContainsInside(p1 + main + "; ", finish, tail, finish);
    }
    LaunchLineEnds(controlScriptPath, user, baseDir, wrapper, remoteScript);
  }

  /** The launch line starts the prefixed subshell and ends by sending it to the background. */
  lemma LaunchLineEnds(controlScriptPath: string, user: UserMethod, baseDir: string,
                       wrapper: string, remoteScript: string)
    ensures var l := LaunchLine(controlScriptPath, user, baseDir, wrapper, remoteScript);
      StartsWith(l, ToS(user.cliCommandPrefix) + " sh -c '(") && EndsWith(l, " &")
  {
    var main, finish := MainScript(wrapper, remoteScript, baseDir), InitFinish(controlScriptPath);
    var p1 := ToS(user.cliCommandPrefix) + " sh -c '";
    var l := LaunchLine(controlScriptPath, user, baseDir, wrapper, remoteScript);
    var front := p1 + main + "; " + finish + "' " + CloseFds();
    assert l == front + " &";
    assert l[|front|..] == " &";
    assert l[..|p1| + 1] == p1 + "(";
  }

  /** The launch command's last line sends the job's output and exit code to files in `baseDir`. */
  lemma LaunchWritesInto(controlScriptPath: string, user: UserMethod, baseDir: string,
                         wrapper: string, remoteScript: string)
    requires NoNewline(controlScriptPath) && NoNewline(user.effectiveUser) && NoNewline(ToS(user.cliCommandPrefix))
    requires NoNewline(baseDir) && NoNewline(wrapper) && NoNewline(remoteScript)
    ensures var ls := Lines(InitializationScript(controlScriptPath, user, baseDir, wrapper, remoteScript));
      && |ls| == 3
      && ls[0] == Assignment("export CONTROL_SCRIPT", controlScriptPath) + "\n"
      && Contains(ls[2], baseDir + "/output")
      && Contains(ls[2], baseDir + "/init_exit_code")
  {
    LaunchLineShape(controlScriptPath, user, baseDir, wrapper, remoteScript);
    var l := LaunchLine(controlScriptPath, user, baseDir, wrapper, remoteScript);
    ContainsBefore(l, "\n", baseDir + "/output");
    ContainsBefore(l, "\n", baseDir + "/init_exit_code");
  }

  lemma LaunchLineNoNewline(controlScriptPath: string, user: UserMethod, baseDir: string,
                            wrapper: string, remoteScript: string)
    requires NoNewline(controlScriptPath) && NoNewline(ToS(user.cliCommandPrefix))
    requires NoNewline(baseDir) && NoNewline(wrapper) && NoNewline(remoteScript)
    ensures NoNewline(LaunchLine(controlScriptPath, user, baseDir, wrapper, remoteScript))
  {
    MainScriptNoNewline(wrapper, remoteScript, baseDir);
    var p1 := ToS(user.cliCommandPrefix) + " sh -c '";
    var main, finish := MainScript(wrapper, remoteScript, baseDir), InitFinish(controlScriptPath);
    NoNewlineConcat(ToS(user.cliCommandPrefix), " sh -c '");
    NoNewlineConcat(p1, main);
    NoNewlineConcat(p1 + main, "; ");
    NoNewlineConcat(controlScriptPath, " init-script-finish");
    NoNewlineConcat(p1 + main + "; ", finish);
    NoNewlineConcat(p1 + main + "; " + finish, "' ");
    NoNewlineConcat(p1 + main + "; " + finish + "' ", CloseFds());
    NoNewlineConcat(p1 + main + "; " + finish + "' " + CloseFds(), " &");
  }

  lemma MainScriptNoNewline(wrapper: string, remoteScript: string, baseDir: string)
    requires NoNewline(baseDir) && NoNewline(wrapper) && NoNewline(remoteScript)
    ensures NoNewline(MainScript(wrapper, remoteScript, baseDir))
  {
    var m0 := "(" + wrapper + " " + remoteScript + " " + CloseStdin() + " 2>&1; echo $?>";
    NoNewlineConcat("(", wrapper);
    NoNewlineConcat("(" + wrapper, " ");
    NoNewlineConcat("(" + wrapper + " ", remoteScript);
    NoNewlineConcat("(" + wrapper + " " + remoteScript, " ");
    NoNewlineConcat("(" + wrapper + " " + remoteScript + " ", CloseStdin());
    NoNewlineConcat("(" + wrapper + " " + remoteScript + " " + CloseStdin(), " 2>&1; echo $?>");
    NoNewlineConcat(baseDir, "/init_exit_code");
    NoNewlineConcat(m0, ExitCodeFile(baseDir));
    NoNewlineConcat(m0 + ExitCodeFile(baseDir), ") >");
    NoNewlineConcat(baseDir, "/output");
    NoNewlineConcat(m0 + ExitCodeFile(baseDir) + ") >", OutputFile(baseDir));
  }
}

=== FILE: text.dfy ===
/**
 The Ruby string operations the runner relies on, on `string` (a `seq<char>`):
 `String#lines`, `Array#join`, `String#chomp`, `String#to_i` on a digit run,
 and the `to_s` of a value that may be `nil`.
 */
module Text {
  import opened Wrappers

  predicate StartsWith(s: string, prefix: string) {
    |prefix| <= |s| && s[..|prefix|] == prefix
  }

  predicate EndsWith(s: string, suffix: string) {
    |suffix| <= |s| && s[|s| - |suffix|..] == suffix
  }

  /** `t` occurs somewhere inside `s`. */
  predicate Contains(s: string, t: string)
    decreases |s|
  {
    StartsWith(s, t) || (s != [] && Contains(s[1..], t))
  }

  predicate NoNewline(s: string) {
    forall i :: 0 <= i < |s| ==> s[i] != '\n'
  }

  /** Ruby's `nil.to_s` is the empty string; interpolating `nil` into a string inserts nothing. */
  function ToS(v: Option<string>): (s: string)
    ensures v.Some? ==> s == v.value
    ensures v.None? ==> s == []
  {
    match v
    case Some(x) => x
    case None => []
  }

  /** Length of the first line of `s`, counting its terminating newline when it has one. */
  function LineLength(s: string): (n: nat)
    ensures n <= |s|
    ensures s != [] ==> 0 < n
    ensures forall i :: 0 <= i < n - 1 ==> s[i] != '\n'
    ensures 0 < n < |s| ==> s[n - 1] == '\n'
  {
    if s == [] then 0
    else if s[0] == '\n' then 1
    else 1 + LineLength(s[1..])
  }

  /** The first line of `s`, newline included: the head of Ruby's `s.lines`. */
  function FirstLine(s: string): string {
    s[..LineLength(s)]
  }

  /** Everything after the first line of `s`. */
  function Rest(s: string): string {
    s[LineLength(s)..]
  }

  /** When the first newline of `s` is at index `i`, the first line ends there and the rest is what follows it. */
  lemma RestAfterNewline(s: string, i: nat)
    requires i < |s| && s[i] == '\n'
    requires NoNewline(s[..i])
    ensures FirstLine(s) == s[..i + 1]
    ensures Rest(s) == s[i + 1..]
  {
  }

  /** Ruby's `String#lines`: the lines of `s` in order, each keeping its newline. */
  function Lines(s: string): (ls: seq<string>)
    ensures s == [] <==> ls == []
    decreases |s|
  {
    if s == [] then [] else [FirstLine(s)] + Lines(Rest(s))
  }

  /** Ruby's `Array#join` with no separator. */
  function Concat(ls: seq<string>): string {
    if ls == [] then [] else ls[0] + Concat(ls[1..])
  }

  /** Joining the lines of a text gives the text back. */
  lemma {:induction false} ConcatLines(s: string)
    ensures Concat(Lines(s)) == s
    decreases |s|
  {
    if s != [] {
      var ls := Lines(s);
      assert ls[0] == FirstLine(s) && ls[1..] == Lines(Rest(s));
      assert Concat(ls) == FirstLine(s) + Concat(Lines(Rest(s)));
      ConcatLines(Rest(s));
      var n := LineLength(s);
      assert s == s[..n] + s[n..];
    }
  }

  /** Shifting off the first of `s.lines` and joining what is left gives exactly the text after the first newline. */
  lemma LinesAfterFirst(s: string)
    requires s != []
    ensures Lines(s)[0] == FirstLine(s)
    ensures Concat(Lines(s)[1..]) == Rest(s)
    ensures Lines(s)[1..] == [] <==> Rest(s) == []
  {
    assert Lines(s)[1..] == Lines(Rest(s));
    ConcatLines(Rest(s));
  }

  /** A line ended by a newline, followed by more text, is the first of that text's lines. */
  lemma {:induction false} LinesOfLine(line: string, rest: string)
    requires NoNewline(line)
    ensures Lines(line + "\n" + rest) == [line + "\n"] + Lines(rest)
  {
    var s := line + "\n" + rest;
    assert s[..|line|] == line;
    RestAfterNewline(s, |line|);
    assert s[|line| + 1..] == rest;
  }

  predicate IsDigit(c: char) {
    '0' <= c <= '9'
  }

  predicate AllDigits(s: string) {
    forall i :: 0 <= i < |s| ==> IsDigit(s[i])
  }

  /** The maximal run of ASCII digits at the start of `s`: what a greedy `\d+` consumes. */
  function LeadingDigits(s: string): (d: string)
    ensures StartsWith(s, d)
    ensures AllDigits(d)
    ensures |d| < |s| ==> !IsDigit(s[|d|])
  {
    if s != [] && IsDigit(s[0]) then [s[0]] + LeadingDigits(s[1..]) else []
  }

  /** Digits followed by a non-digit: the digit run is exactly those digits, whatever comes after. */
  lemma {:induction false} LeadingDigitsOf(d: string, c: char, t: string)
    requires AllDigits(d) && !IsDigit(c)
    ensures LeadingDigits(d + [c] + t) == d
    decreases |d|
  {
    var s := d + [c] + t;
    if d == [] {
      assert s[0] == c;
    } else {
      assert s[1..] == d[1..] + [c] + t;
      LeadingDigitsOf(d[1..], c, t);
    }
  }

  /** Two texts that agree up to the end of the shorter one, which ends in a non-digit, start with the same digit run. */
  lemma {:induction false} LeadingDigitsOfPrefix(a: string, b: string)
    requires StartsWith(b, a)
    requires |a| == |b| || (a != [] && !IsDigit(a[|a| - 1]))
    ensures LeadingDigits(a) == LeadingDigits(b)
    decreases |a|
  {
    if |a| == |b| {
      assert a == b;
    } else if IsDigit(a[0]) {
      assert StartsWith(b[1..], a[1..]);
      LeadingDigitsOfPrefix(a[1..], b[1..]);
    }
  }

  function DigitValue(c: char): nat
    requires IsDigit(c)
  {
    c as int - '0' as int
  }

  function DigitChar(k: nat): (c: char)
    requires k < 10
    ensures IsDigit(c) && DigitValue(c) == k
  {
    ('0' as int + k) as char
  }

  /** Ruby's `String#to_i` on a string made only of decimal digits (the empty string gives 0). */
  function DecimalValue(d: string): nat
    requires AllDigits(d)
    decreases |d|
  {
    if d == [] then 0 else 10 * DecimalValue(d[..|d| - 1]) + DigitValue(d[|d| - 1])
  }

  /** The decimal notation of `n`, as `Integer#to_s` writes it. */
  function Decimal(n: nat): (d: string)
    ensures d != [] && AllDigits(d)
  {
    if n < 10 then [DigitChar(n)] else Decimal(n / 10) + [DigitChar(n % 10)]
  }

  /** Reading back the decimal notation of `n` gives `n`. */
  lemma {:induction false} DecimalRoundTrip(n: nat)
    ensures DecimalValue(Decimal(n)) == n
  {
    var d := Decimal(n);
    if n >= 10 {
      assert d[..|d| - 1] == Decimal(n / 10);
      DecimalRoundTrip(n / 10);
    }
  }

  /**
   Ruby's `String#chomp` with no argument: removes one trailing "\r\n", or else one
   trailing "\n" or "\r", and leaves any other text alone.
   */
  function Chomp(s: string): (r: string)
    ensures StartsWith(s, r)
    ensures s[|r|..] in ["", "\n", "\r", "\r\n"]
    ensures |r| == |s| <==> !(EndsWith(s, "\n") || EndsWith(s, "\r"))
    ensures EndsWith(s, "\r\n") ==> |r| == |s| - 2
  {
    if EndsWith(s, "\r\n") then s[..|s| - 2]
    else if EndsWith(s, "\n") || EndsWith(s, "\r") then s[..|s| - 1]
    else s
  }
}

=== FILE: wrappers.dfy ===
/** Ruby's `nil`, for the values the runner may or may not have. */
module Wrappers {

  /** A missing value (`nil`) or a present one. */
  datatype Option<T> = None | Some(value: T)
}
